=== FILE: README.md ===
# wbmaker, the data-shaping core, in Dafny

wbmaker is a small Python toolkit for Wikibase. It creates and updates items
from plain dictionaries, queries a SPARQL endpoint, and fills MediaWiki
templates from Wikidata. Most of it is glue around HTTP, mwclient and
wikibaseintegrator. This project models the pure layer between those
services, with every network answer treated as an input.

- `wrappers.dfy`, module `Wrappers`:
  - `Option`;
  - `Py<T>`, which is either a value or a raised Python exception;
  - `MapPy`, a loop that stops at the first exception;
  - `FilterMapPy`, the same loop keeping only the present results, and
    `Somes`, an independent definition of those results in order.
- `assoc_list.dfy`, module `AssocList`: Python dicts as insertion-ordered
  association lists. Assigning to an existing key keeps its position and
  replaces its value.
- `text.dfy`, module `Text`:
  - `str.split` and `sep.join` for a one-character separator, with their
    round trip;
  - zero-padded decimal formatting;
  - `int()` and `str()` for integers.
- `json_values.dfy`, module `JsonValues`: JSON values and the Python
  operations the code applies to them. These are truthiness, `in`,
  subscripting, iteration, `dict.get` and `str()`.
- `wb.dfy`, module `Wb` (`wbmaker/wb.py`):
  - `sparql_query`, given the HTTP status and the parsed body;
  - the post-processing of `property_map`;
  - `wb_dt`.
- `data_to_info.dfy`, module `DataToInfo` (`wbmaker/data_to_info.py`):
  - SPARQL bindings to template parameters;
  - Wikidata claims to template parameters;
  - `create_wikitext_template` and a parser that reads its output back;
  - the `Template:` name normalisation.
- `item.dfy`, module `ItemModel` (`wbmaker/item.py`):
  - `get_value`;
  - `build_statement`;
  - `identify_data`;
  - `process_claim`;
  - the label, alias and description handling of `Item.__init__`.

An item is modelled as a value: its English label, aliases and description,
plus a map from property id to its claims. Each claim is a main snak with
qualifier and reference lists. Python exceptions that escape a function are
`Raises(kind)`. Python `None` is `None` where the code returns it, and `JNull`
where it sits inside data.

Two functions have an "as written" version and a corrected version (see
Findings):
- the qualifier and reference replacement of `process_claim`;
- the TIME and QUANTITY normalisation feeding `build_statement`.

`ProcessClaim`, `PrepareClaim`, `IdentifyData` and `InitItem` use the
corrected versions. `ProcessClaimAsWritten`, `IdentifyDataAsWritten` and
`InitItemAsWritten` compose the as-written steps, and lemmas show where the
two compositions agree.

`wb_dt` is modelled on a `datetime`, as the code calls `strftime` on its
argument. The tests in `tests/test_wb.py` pass ISO date strings to it and
expect a stamp, or None for an invalid string. The model follows the code.

## Model

| member | source | states |
|---|---|---|
| Wb.WbDtFormat | wbmaker/wb.py:117-118 | the stamp is `+YYYY-MM-DD` followed by `T00:00:00Z`, 21 characters; the time of day is dropped |
| Wb.WbDtRoundTrip | wbmaker/wb.py:117-118 | reading the stamp back gives exactly the year, month and day |
| Wb.WbDtSameDay | wbmaker/wb.py:117-118 | two date-times have the same stamp if and only if they fall on the same calendar day |
| Wb.SparqlQuery | wbmaker/wb.py:60-101 | non-200 status, an unparseable body or falsy bindings give None; otherwise `raw` gives the body itself, `dataframe` the frame of the shaped records, `lookup` the lookup table built from them, any other mode the records, and a failure to shape them raises |
| Wb.EmptyBindingsGiveNone | wbmaker/wb.py:77-78 | an empty bindings list gives None in every output mode |
| Wb.MissingBindingsRaise | wbmaker/wb.py:77-78 | a body without `results.bindings` makes the query raise |
| Wb.Cell | wbmaker/wb.py:89 | a variable absent from the binding gives None; a present one gives the bound term's `value` |
| Wb.ShapeRecordIsDictOfCells | wbmaker/wb.py:87-89 | a record is built if and only if every head variable can be looked up and used as a key, and it is then the dict filled from the variables in head order |
| Wb.RecordHasExactlyHeadVariables | wbmaker/wb.py:84-90 | a record's keys are exactly the head variables (each once, in head order), each holding its cell |
| Wb.ShapeRecords | wbmaker/wb.py:83-90 | one record per binding; record i is the shaping of binding i |
| Wb.QueryRecords | wbmaker/wb.py:83-90 | the records are built exactly when the bindings, the head variables and every binding can be read, and are then the shaping of each binding in order |
| Wb.QueryRowsHaveHeadVariables | wbmaker/wb.py:83-99 | a frame or record list has one row per binding, each keyed by exactly the head variables |
| Wb.OneRecordPerBinding | wbmaker/wb.py:83-90 | every record of the result has exactly the head variables as keys |
| Wb.ToDictLastWins | wbmaker/wb.py:99 | building the dict succeeds exactly when every label is hashable; the keys are then the distinct labels in order of first appearance, and each holds the value of its last row |
| Wb.SegmentsAreLastPathParts | wbmaker/wb.py:98 | splitting succeeds exactly when every cell is a string; each segment then holds no `/`, ends its cell, and is the whole cell or follows a `/` |
| Wb.LookupMapsLabelToSegment | wbmaker/wb.py:94-99 | the lookup maps each row's second-column value to the last `/`-segment of its first-column value |
| Wb.PropertyMap | wbmaker/wb.py:103-114 | a failed query or empty bindings make `property_map` raise TypeError, a body without bindings raises as the query does, and a successful query gives the property table of its records; success needs a status of 200 and readable records |
| Wb.PropertyMapSendsLabelToPid | wbmaker/wb.py:112-114 | the property map sends each label to the last `/`-segment of its property URI |
| DataToInfo.ParamLines | wbmaker/data_to_info.py:174-175 | one line per parameter, in dict order, and each line whose name holds no `=` parses back to exactly its parameter |
| DataToInfo.RenderedParamsReadBack | wbmaker/data_to_info.py:174-175 | `str()` renders a string name or value as itself and an integer as a decimal that `int()` reads back to it |
| DataToInfo.CreateWikitextTemplate | wbmaker/data_to_info.py:173-177 | the text starts with `{{` and the template name |
| DataToInfo.TemplateRoundTrip | wbmaker/data_to_info.py:173-177 | parsing the text gives back the name and the parameters in order, when names hold no `=` and nothing holds a line break |
| DataToInfo.TemplateLineCount | wbmaker/data_to_info.py:173-177 | the text has exactly one line per parameter plus two, whenever nothing holds a line break |
| DataToInfo.TemplatePageTitle | wbmaker/data_to_info.py:130-133 | the page title always starts with `Template:`; a name that already starts with it is used as is, and any other name gets it prepended |
| DataToInfo.PrefixedNameSamePage | wbmaker/data_to_info.py:130-133 | `X` and `Template:X` name the same page |
| DataToInfo.StripsOnlyOnce | wbmaker/data_to_info.py:130-131 | only one leading `Template:` is removed |
| DataToInfo.EitherNameFetchesSameTemplate | wbmaker/data_to_info.py:128-136 | `X` and `Template:X` fetch the same template text, and `Template:Template:X` fetches the page `Template:X` |
| DataToInfo.BindingEntry | wbmaker/data_to_info.py:105-107 | a binding that lacks `param` or `value` contributes nothing; one with both succeeds exactly when both bound values can be read and the name is hashable, and contributes that pair |
| DataToInfo.Collect | wbmaker/data_to_info.py:103-108 | the loop succeeds exactly when every binding can be read, and assigns the contributing bindings' pairs in binding order |
| DataToInfo.SparqlToTemplateParams | wbmaker/data_to_info.py:93-110 | a falsy result, or one without `results` or `bindings`, gives None; a returned map is never empty |
| DataToInfo.ParamsFromBindings | wbmaker/data_to_info.py:96-110 | a returned map is never empty |
| DataToInfo.WellFormedResultReachesLoop | wbmaker/data_to_info.py:93-98 | a result with a bindings list reaches the loop over exactly those bindings |
| DataToInfo.ParamsAreLastAssignments | wbmaker/data_to_info.py:102-110 | for readable bindings the result is None if and only if no binding contributes; otherwise each parameter name appears once, at its first position, holding its last value |
| DataToInfo.RepeatedParamKeepsPlaceTakesLastValue | wbmaker/data_to_info.py:102-110 | bindings `p=v1`, `q=v2`, `p=v3` give exactly `{p: v3, q: v2}` |
| DataToInfo.FillTemplateFromSparql | wbmaker/data_to_info.py:201-207 | the result is None if and only if the parameters are None; otherwise it is the template call built from them |
| DataToInfo.FilledFromSparqlReadsBack | wbmaker/data_to_info.py:201-207 | the filled template parses back to the template name and the query's parameters |
| DataToInfo.ClaimValue | wbmaker/data_to_info.py:252-263 | a string value passes unchanged; a value that is neither string nor dict gives nothing |
| DataToInfo.ClaimValueByPriority | wbmaker/data_to_info.py:254-263 | a dict gives its first present key among `id`, `time`, `text`, `amount`, and nothing if and only if it has none of them |
| DataToInfo.PropertyValueReadsMainsnak | wbmaker/data_to_info.py:246-263 | a property's value is what `ClaimValue` makes of `claims[pid][0]['mainsnak']['datavalue']['value']`, and a value is read from nowhere else; an absent property, a first statement without `mainsnak`, or a main snak without `datavalue` is skipped |
| DataToInfo.ApiStatementRead | wbmaker/data_to_info.py:246-263 | for a first statement shaped as the Wikidata API returns it, the property gives `ClaimValue` of its data value, whatever statements follow, and nothing when the snak has no data |
| DataToInfo.OnlyFirstStatementCounts | wbmaker/data_to_info.py:246-248 | only the first statement of a property is read |
| DataToInfo.EmptyStatementListRaises | wbmaker/data_to_info.py:248 | an empty statement list makes the code raise IndexError |
| DataToInfo.MapClaims | wbmaker/data_to_info.py:244-263 | succeeds exactly when every mapped property can be read, and assigns the values present in mapping order |
| DataToInfo.ClaimEntry | wbmaker/data_to_info.py:246-263 | a mapped property contributes its parameter with the property's value exactly when the property has a value, and fails exactly when reading it fails |
| DataToInfo.FillFromClaims | wbmaker/data_to_info.py:244-269 | filling fails exactly when reading some mapped property fails; what the template holds is stated by `FilledFromClaimsReadsBack` |
| DataToInfo.ClaimParamsFromMapping | wbmaker/data_to_info.py:244-263 | the collected parameters name each parameter once, and each holds the value of a mapped property of that name |
| DataToInfo.ClaimParamHoldsValue | wbmaker/data_to_info.py:244-263 | with distinct parameter names, as a dict has, every mapped property with a value puts exactly that value under its parameter |
| DataToInfo.FilledFromClaimsReadsBack | wbmaker/data_to_info.py:244-269 | the filled template parses back to the template name and parameters named once, in the order the mapping loop first assigns them, each a mapped parameter holding its property's value rendered with `str()`; with distinct names every mapped property with a value appears, when no name holds `=` or a line break and no value a line break |
| DataToInfo.FillTemplateFromItemData | wbmaker/data_to_info.py:235-269 | a falsy item document, or one without `entities` or without the qid, gives None |
| DataToInfo.TemplateIffSomeValue | wbmaker/data_to_info.py:265-269 | a template is produced if and only if some mapped property has a value |
| DataToInfo.FoundItemFillsFromItsClaims | wbmaker/data_to_info.py:237-241 | for any document holding the entity, an object entity fills the template from its claims (or from `{}` when it has none), and any other entity makes the code raise AttributeError |
| ItemModel.KindOf | wbmaker/item.py:148-163 | monolingual text statements are always in English |
| ItemModel.KindNamesCorrespond | wbmaker/item.py:148-163 | the seven data type names and the statement kinds correspond one to one; any other name gives no statement |
| ItemModel.SnakTypeOf | wbmaker/item.py:139-143 | the snak type is unknown exactly for `SPECIAL:UNKNOWN_VALUE` and no-value exactly for `SPECIAL:NO_VALUE`; every other value is a known value |
| ItemModel.SnakTypeMarkers | wbmaker/item.py:139-143 | the two markers select their snak types, and a value gives a known value if and only if it is neither marker, other `SPECIAL:` strings included; None gives a known value |
| ItemModel.GetValue | wbmaker/item.py:70-78 | a snak without a data value makes `get_value` raise |
| ItemModel.GetValueByPriority | wbmaker/item.py:70-78 | a string is returned unchanged; a dict gives its first present key among `id`, `text`, `time`, `amount`; anything else gives None |
| ItemModel.NormaliseValueAsWritten | wbmaker/item.py:87-91 | a value that is not a string raises AttributeError; a `SPECIAL:` value passes untouched |
| ItemModel.BuildStatementAsWritten | wbmaker/item.py:134-168 | any value that is not a string makes `build_statement` raise AttributeError |
| ItemModel.NormaliseValue | wbmaker/item.py:87-91 | `SPECIAL:` values pass untouched; a TIME value succeeds exactly for a datetime, giving its stamp; QUANTITY gives an integer; other types pass unchanged |
| ItemModel.BuildStatement | wbmaker/item.py:134-168 | a recognised data type succeeds exactly when the value is None, a marker, or accepted by `set_value`, and otherwise raises `set_value`'s error; the statement has the pid, kind and snak type, holding the encoded value unless it is a marker; an unrecognised type gives None, and raises when a value must be set |
| ItemModel.MarkerBuildsValuelessSnak | wbmaker/item.py:139-166 | a marker builds a statement of that snak type with no value, which `get_value` cannot read |
| ItemModel.QuantityRaisesAsWritten | wbmaker/item.py:165-166 | as written, every QUANTITY value that is not a marker becomes an integer and then makes `build_statement` raise |
| ItemModel.QuantityFiveRaisesAsWritten | wbmaker/item.py:165-166 | the QUANTITY value `"5"` makes the code as written raise |
| ItemModel.TimeRaisesAsWritten | wbmaker/item.py:87-89 | as written, no TIME value other than a marker survives normalisation |
| ItemModel.QuantityBuildsKnownValue | wbmaker/item.py:90-91 | corrected, a decimal QUANTITY string becomes the integer, and building it is setting that integer on a known-value statement |
| ItemModel.TimeBuildsKnownValue | wbmaker/item.py:88-89 | corrected, a TIME datetime becomes its `wb_dt` stamp, and building it is setting that stamp on a known-value statement |
| ItemModel.CorrectionsAgreeOnStrings | wbmaker/item.py:87-96 | outside TIME and QUANTITY, the corrected and as-written versions agree on every string |
| ItemModel.BuildAll | wbmaker/item.py:103-114 | one statement per value, in order, each the normalised and built value; it fails exactly when some value fails |
| ItemModel.PrepareGroup | wbmaker/item.py:97-114 | succeeds exactly when every wrapped value can be prepared; the group keeps its pid and `replace` flag, and statement i is the prepared value i |
| ItemModel.PrepareClaim | wbmaker/item.py:84-132 | succeeds exactly when the value normalises, its statement builds and every group prepares; the claim then holds the normalised value, the statement built from it, and group i prepared from group i, for qualifiers and references |
| ItemModel.IdentifyData | wbmaker/item.py:80-132 | every claim is prepared, in order; it fails exactly when some claim fails |
| ItemModel.IdentifyDataAsWritten | wbmaker/item.py:80-132 | as written, one TIME or QUANTITY claim whose value is not a marker makes `identify_data` raise |
| ItemModel.IdentifyDataAgreesOnPlainClaims | wbmaker/item.py:80-132 | on claims of other types with string values, `identify_data` as written and as corrected prepare the same claims |
| ItemModel.PlainStringGroupPrepared | wbmaker/item.py:101-114 | a group of plain strings for a string-like type is prepared exactly when `set_value` accepts every value, and then yields one known-value statement per value, holding that value |
| ItemModel.FirstMatch | wbmaker/item.py:174-175 | the result is the first claim whose value equals the incoming value, with all earlier claims readable and different; None exactly when every claim is readable and none matches |
| ItemModel.AddAll | wbmaker/item.py:194-195 | the statements are appended in order after the existing snaks; it fails exactly when some statement is None |
| ItemModel.AddAllMembers | wbmaker/item.py:194-195 | after adding, the snaks are exactly the old ones and the added statements |
| ItemModel.Without | wbmaker/item.py:184-187 | keeps exactly the snaks of other properties |
| ItemModel.QualifierGroupAsWritten | wbmaker/item.py:183-195 | succeeds exactly when `replace` is present and every statement was built; main snak and references are untouched; with `replace` and a matching qualifier only the new qualifiers remain, otherwise the new ones follow the old |
| ItemModel.ReferenceGroupAsWritten | wbmaker/item.py:199-211 | succeeds exactly when `replace` is present and every statement was built; references are only ever appended to; with `replace` and a matching reference, the qualifiers are cleared |
| ItemModel.QualifierGroup | wbmaker/item.py:183-195 | main snak and references are untouched; it succeeds exactly when `replace` is present and every statement was built |
| ItemModel.ReferenceGroup | wbmaker/item.py:199-211 | main snak and qualifiers are untouched; it succeeds exactly when `replace` is present and every statement was built |
| ItemModel.QualifierGroupReplacesOnlyItsProperty | wbmaker/item.py:183-195 | the resulting qualifiers are exactly the old ones (minus the group's property when replacing) plus the new ones |
| ItemModel.ReferenceGroupReplacesOnlyItsProperty | wbmaker/item.py:199-211 | the resulting references are exactly the old ones (minus the group's property when replacing) plus the new ones |
| ItemModel.GroupsAgreeWithoutReplace | wbmaker/item.py:181-211 | unless `replace` is true, the as-written and corrected group updates agree |
| ItemModel.QualifierReplaceClearsOtherProperties | wbmaker/item.py:188-192 | as written, replacing P1 also drops a P2 qualifier; the corrected version keeps it |
| ItemModel.ReferenceReplaceKeepsReferences | wbmaker/item.py:204-208 | as written, replacing P3 keeps the old P3 reference and clears the qualifiers; the corrected version removes only the reference |
| ItemModel.ApplyQualifierGroups | wbmaker/item.py:181-195 | the qualifier groups never touch the main snak or the references |
| ItemModel.ApplyReferenceGroups | wbmaker/item.py:197-211 | the reference groups never touch the main snak or the qualifiers |
| ItemModel.ProcessClaim | wbmaker/item.py:170-214 | the header and the other properties' claims stay; with no match the new statement is appended as a claim; with a match that claim is updated in place, keeping its main snak, and the rest stay |
| ItemModel.NoneClaimError | wbmaker/item.py:181-208 | with the claim None, the first qualifier or reference group that is not inert (inert: `replace` false and no statements) decides the error: KeyError when it has no `replace`, AttributeError otherwise; only inert groups raise nothing |
| ItemModel.UnbuiltUnmatchedClaimRaises | wbmaker/item.py:170-214 | with no matching claim and no statement built, `process_claim` always raises: KeyError when the first non-inert qualifier group lacks `replace`, TypeError from `claims.add(None)` when every group is inert |
| ItemModel.ProcessClaimAgreesWithoutReplace | wbmaker/item.py:170-214 | unless some group replaces, `process_claim` as written and as corrected give the same item |
| ItemModel.ProcessClaimAsWrittenDropsOtherQualifiers | wbmaker/item.py:174-195 | as written, replacing the P1 qualifiers of the matching claim drops its P2 qualifier; corrected, it is kept |
| ItemModel.ProcessClaims | wbmaker/item.py:32-34 | after the loop the header is untouched, every processed property has claims, and unmentioned properties keep theirs |
| ItemModel.ProcessClaimsStep | wbmaker/item.py:32-34 | one more processed claim preserves the loop's guarantee |
| ItemModel.ProcessClaimsAgreeWithoutReplace | wbmaker/item.py:32-34 | unless some group replaces, the claims loop as written and as corrected give the same item |
| ItemModel.TruncateDescription | wbmaker/item.py:29-30 | the description kept is its prefix of length min(length, 250) |
| ItemModel.ApplyHeader | wbmaker/item.py:19-30 | a non-empty label is set; non-empty aliases are set, a single alias wrapped into a list; a non-empty description is set to its first 250 characters; claims are untouched; falsy fields leave the item as it was |
| ItemModel.SingleAliasIsWrapped | wbmaker/item.py:22-27 | a single alias and a one-element alias list set the same aliases |
| ItemModel.InitItem | wbmaker/item.py:11-34 | construction succeeds only if `identify_data` does; the header is as `ApplyHeader` sets it, and every described claim's property ends up with claims |
| ItemModel.InitItemAgreesOnPlainData | wbmaker/item.py:11-34 | for string claims outside TIME and QUANTITY whose groups never replace, `Item.__init__` as written and as corrected build the same item |

## Left out

- Network and the wiki are not modelled:
  - `requests.get` in `sparql_query`: the status and parsed body are inputs, and a body that fails to parse is `None`.
  - `get_wikidata_item`: its answer is an input.
  - mwclient page reads: the wiki's pages are a title-to-text map.
  - mwclient page writes, `item.write`, the item-talk cache and the `commit` path of `Item.__init__`: these are output only.
- The `except (AttributeError, KeyError)` of `get_wikipedia_template` is not modelled: it guards only the mwclient calls.
- `WB.__init__`, configuration, login, `_get_domain` and the endpoint default need credentials or a URL library.
- Template text processing is left out: Jinja wrapping (`load_template_as_jinja`) and the `str.format` that puts the qid into a query.
- pandas is not modelled: a DataFrame is the record list it is built from, and NaN is `None`.
- Property lookup through the Wikibase instance (`wb.props`, `_property_type`) is not modelled; claims arrive with the pid and data type already resolved. In the source, `property_map` returns label to pid string, while `item.py` indexes the entries with `["property"]`; this mismatch is not modelled either.
- `item.py` reads `wb.wbi_enums` (for the snak types and for `ActionIfExists` when setting aliases) and `wb.datatypes` (for the statement classes), but `WB.__init__` in `wb.py` sets neither attribute; it only imports these names at module level. With a real `WB` object, `build_statement` and an `Item.__init__` with aliases would raise AttributeError. The model assumes an object that provides both, as the test doubles in `tests/test_item.py` do, and reads them as wikibaseintegrator's enums and datatype classes.
- `item.get`/`item.new` are not modelled: the fetched or new item is the input `base`.
- `item_data_template` is not modelled: it only returns a constant.
- wikibaseintegrator internals:
  - `set_value` encoding is the parameter `enc`, which returns the encoded value or the exception it raises; that exception escapes `build_statement`.
  - A property without claims reads as an empty list.
  - `add` appends.
  - Adding `None` to a container is taken as TypeError.
  - A reference is one snak, and a snak's `get_json()["property"]` is its pid.
  - Claims are always truthy.
- `Value` does not include None as a claim value: a claim value is a string, an integer or a datetime.
- `wb_dt`: its default argument is `datetime.now()`, evaluated once; the model takes the date-time as input. Years below 1000 are padded to four digits, as Python documents for `%Y`; some C libraries do not pad.
- `int()` accepts surrounding whitespace and underscores between digits; the model does not.
- `int()` also accepts decimal digits of other scripts (for example Arabic-Indic digits); the model reads only ASCII `0`-`9`.
- `repr` escaping of quotes and special characters inside strings is not modelled. Floats are not modelled: JSON numbers are integers.
- `True == 1` is modelled only in the claim value comparison (`PyEq`).
- Labels, aliases and descriptions are modelled in English only.
- The subclass-hierarchy path analysis is not modelled: its graph code is not part of this model.
- ItemModel.ProcessClaim: the effect of the qualifier and reference groups on a matched or new claim is stated per group by `QualifierGroupReplacesOnlyItsProperty` and `ReferenceGroupReplacesOnlyItsProperty`, not for the whole sequence of groups.
- ItemModel.ApplyQualifierGroups: states only what the groups leave untouched; the effect of each group is stated by `QualifierGroup`'s lemmas.
- ItemModel.ApplyReferenceGroups: states only what the groups leave untouched; the effect of each group is stated by `ReferenceGroup`'s lemmas.
- ItemModel.ProcessClaims: states which properties change, not the claims they end with; those follow from `ProcessClaim` step by step. It composes the corrected `process_claim`; `ProcessClaimsAgreeWithoutReplace` shows it equals the as-written loop unless a group replaces.
- ItemModel.InitItem: does not state the final claims, only that every described property has some. It composes the corrected steps; `InitItemAgreesOnPlainData` shows where it equals the code as written.
- ItemModel.IdentifyData: composes the corrected normalisation; `IdentifyDataAsWritten` is the code as written, and `IdentifyDataAgreesOnPlainClaims` shows where the two agree.
- ItemModel.PrepareClaim: composes the corrected normalisation and `build_statement`; the as-written steps are `NormaliseValueAsWritten` and `BuildStatementAsWritten`, composed in `PrepareClaimAsWritten`.
- ItemModel.ProcessClaim: composes the corrected group loops; `ProcessClaimAsWritten` is the code as written, and `ProcessClaimAgreesWithoutReplace` and `ProcessClaimAsWrittenDropsOtherQualifiers` show where the two agree and where they differ.
- DataToInfo.CreateWikitextTemplate: states only the first line directly; the full layout is stated by `TemplateRoundTrip` and `TemplateLineCount`.

## Findings

| source | as written | input that shows it | evidently intended | confidence | as-written member | corrected member |
|---|---|---|---|---|---|---|
| wbmaker/item.py:188-192 | the qualifier removal calls `claim.qualfiers.remove(q)`; the misspelt attribute raises AttributeError, and the handler clears every qualifier | a claim with qualifiers for P1 and P2, and a qualifier group for P1 with `replace` true: the P2 qualifier is lost too | remove only the qualifiers for the group's property | high (not executed) | ItemModel.QualifierReplaceClearsOtherProperties | ItemModel.QualifierGroupReplacesOnlyItsProperty |
| wbmaker/item.py:204-208 | the reference removal also goes through `claim.qualfiers`, so it clears the qualifiers and never removes a reference | a claim with a qualifier and a P3 reference, and a reference group for P3 with `replace` true: the reference stays and the qualifier is lost | remove the references for the group's property and leave the qualifiers | high (not executed) | ItemModel.ReferenceReplaceKeepsReferences | ItemModel.ReferenceGroupReplacesOnlyItsProperty |
| wbmaker/item.py:165 | after `int(...)` has turned a QUANTITY value into an integer, `build_statement` calls `value.startswith`, which integers do not have | a claim of a QUANTITY property with value `"5"` raises AttributeError | check for the `SPECIAL:` prefix only on strings and set the integer | high (not executed) | ItemModel.QuantityFiveRaisesAsWritten | ItemModel.QuantityBuildsKnownValue |
| wbmaker/item.py:87-89 | a TIME string goes to `wb_dt`, which calls `strftime` on it, and a `datetime` fails at `.startswith` | a TIME claim with value `"2020-01-01"` raises AttributeError, and so does one with a `datetime` value | ambiguous: the code calls `strftime`, which needs a `datetime`, while the tests call `wb_dt` with ISO strings and expect a stamp (None for an invalid one); the corrected member takes the `datetime` reading and checks for the prefix only on strings | medium (not executed) | ItemModel.TimeRaisesAsWritten | ItemModel.TimeBuildsKnownValue |

=== FILE: assoc_list.dfy ===
/** Insertion-ordered dictionaries, the way a Python `dict` behaves.

    An association list keeps one entry per key in the order the keys were first
    inserted. Assigning to a key that is already present replaces its value and
    keeps its position; assigning to a new key appends it. This decides, for
    instance, the line order of a serialised template.
 */
module AssocList {
  import opened Wrappers

  type AList<K, V> = seq<(K, V)>

  /** The keys of `m`, in order. */
  function Keys<K, V>(m: AList<K, V>): (ks: seq<K>)
    ensures |ks| == |m|
    ensures forall i :: 0 <= i < |m| ==> ks[i] == m[i].0
  {
    seq(|m|, i requires 0 <= i < |m| => m[i].0)
  }

  /** The values of `m`, in order. */
  function Values<K, V>(m: AList<K, V>): (vs: seq<V>)
    ensures |vs| == |m|
    ensures forall i :: 0 <= i < |m| ==> vs[i] == m[i].1
  {
    seq(|m|, i requires 0 <= i < |m| => m[i].1)
  }

  predicate Distinct<K(==)>(ks: seq<K>) {
    forall i, j :: 0 <= i < j < |ks| ==> ks[i] != ks[j]
  }

  /** The position of the first occurrence of `x` in `ks`. */
  function FirstIndex<K(==)>(ks: seq<K>, x: K): (i: nat)
    requires x in ks
    ensures i < |ks| && ks[i] == x && x !in ks[..i]
  {
    if ks[0] == x then 0
    else
      var j := FirstIndex(ks[1..], x);
      assert ks[1..][..j] == ks[1..j + 1];
      assert ks[..j + 1] == [ks[0]] + ks[1..j + 1];
      1 + j
  }

  /** Any position that holds `x` with no earlier `x` is the first index. */
  lemma FirstIndexUnique<K>(ks: seq<K>, x: K, i: nat)
    requires i < |ks| && ks[i] == x && x !in ks[..i]
    ensures FirstIndex(ks, x) == i
  {
  }

  /** `m[k]`, or None when `k` is absent. */
  function Get<K(==), V>(m: AList<K, V>, k: K): (r: Option<V>)
    ensures r.None? <==> k !in Keys(m)
  {
    if k in Keys(m) then Some(m[FirstIndex(Keys(m), k)].1) else None
  }

  /** `m[k] = v` on a Python dict. */
  function Put<K(==), V>(m: AList<K, V>, k: K, v: V): (r: AList<K, V>)
    ensures |r| == if k in Keys(m) then |m| else |m| + 1
  {
    if k in Keys(m) then m[FirstIndex(Keys(m), k) := (k, v)] else m + [(k, v)]
  }

  /** Assignment keeps the key order: an existing key keeps its place, a new
      key goes to the end. */
  lemma PutKeys<K, V>(m: AList<K, V>, k: K, v: V)
    ensures Keys(Put(m, k, v)) == if k in Keys(m) then Keys(m) else Keys(m) + [k]
  {
    var r := Put(m, k, v);
    if k in Keys(m) {
      assert forall i :: 0 <= i < |r| ==> Keys(r)[i] == Keys(m)[i];
    } else {
      assert forall i :: 0 <= i < |r| ==> Keys(r)[i] == (Keys(m) + [k])[i];
    }
  }

  /** The read-after-write laws of a dictionary. */
  lemma PutGet<K, V>(m: AList<K, V>, k: K, v: V, k': K)
    ensures Get(Put(m, k, v), k') == if k' == k then Some(v) else Get(m, k')
  {
    var r := Put(m, k, v);
    PutKeys(m, k, v);
    if k in Keys(m) {
      var i := FirstIndex(Keys(m), k);
      if k' in Keys(m) {
        var i' := FirstIndex(Keys(m), k');
        assert Keys(r) == Keys(m);
        if k' != k {
          assert i' != i;
        }
      }
    } else {
      assert Keys(r) == Keys(m) + [k];
      assert (Keys(m) + [k])[..|m|] == Keys(m);
      if k' == k {
        FirstIndexUnique(Keys(r), k, |m|);
      } else if k' in Keys(m) {
        var i' := FirstIndex(Keys(m), k');
        assert Keys(r)[..i'] == Keys(m)[..i'];
        FirstIndexUnique(Keys(r), k', i');
      }
    }
  }

  lemma PutDistinct<K, V>(m: AList<K, V>, k: K, v: V)
    requires Distinct(Keys(m))
    ensures Distinct(Keys(Put(m, k, v)))
  {
    PutKeys(m, k, v);
  }

  /** Assigning every pair of `es` in order: `for k, v in es: m[k] = v`. */
  function PutAll<K(==), V>(m: AList<K, V>, es: seq<(K, V)>): AList<K, V>
  {
    if |es| == 0 then m
    else Put(PutAll(m, es[..|es| - 1]), es[|es| - 1].0, es[|es| - 1].1)
  }

  /** `ks` followed by the elements of `news` that are not yet present, each
      once, in the order of their first appearance. */
  function AppendNew<K(==)>(ks: seq<K>, news: seq<K>): seq<K>
  {
    if |news| == 0 then ks
    else
      var r := AppendNew(ks, news[..|news| - 1]);
      if news[|news| - 1] in r then r else r + [news[|news| - 1]]
  }

  /** The distinct elements of `ks`, in order of first appearance. */
  function Dedup<K(==)>(ks: seq<K>): seq<K>
  {
    AppendNew([], ks)
  }

  /** The value of the last pair in `es` whose key is `k`. */
  function LastValue<K(==), V>(es: seq<(K, V)>, k: K): V
    requires k in Keys(es)
  {
    var n := |es| - 1;
    if es[n].0 == k then es[n].1
    else
      assert Keys(es) == Keys(es[..n]) + [es[n].0];
      LastValue(es[..n], k)
  }

  /** The last value for `k` is the value of some pair of `es`. */
  lemma {:induction false} LastValueIn<K, V>(es: seq<(K, V)>, k: K)
    requires k in Keys(es)
    ensures (k, LastValue(es, k)) in es
  {
    var n := |es| - 1;
    if es[n].0 != k {
      assert Keys(es) == Keys(es[..n]) + [es[n].0];
      LastValueIn(es[..n], k);
      assert es[..n] <= es;
    }
  }

  /** Assignment invents nothing: every entry of `PutAll(m, es)` is an entry
      of `m` or one of the assigned pairs. */
  lemma {:induction false} PutAllEntriesFrom<K, V>(m: AList<K, V>, es: seq<(K, V)>)
    ensures forall e :: e in PutAll(m, es) ==> e in m || e in es
  {
    if |es| > 0 {
      var n := |es| - 1;
      PutAllEntriesFrom(m, es[..n]);
      var prev := PutAll(m, es[..n]);
      var r := Put(prev, es[n].0, es[n].1);
      forall e | e in r ensures e in m || e in es {
        var j :| 0 <= j < |r| && r[j] == e;
        if j < |prev| && r[j] == prev[j] {
          assert e in prev;
          assert es[..n] <= es;
        } else {
          assert e == es[n];
        }
      }
    }
  }

  /** A key assigned only ever one value holds that value in the dict built
      from the assignments. */
  lemma PutAllSingleValue<K, V>(es: seq<(K, V)>, k: K, v: V)
    requires (k, v) in es
    requires forall e :: e in es && e.0 == k ==> e.1 == v
    ensures (k, v) in PutAll([], es)
  {
    var i :| 0 <= i < |es| && es[i] == (k, v);
    assert Keys(es)[i] == k;
    FromPairs(es);
    LastValueIn(es, k);
    var m := PutAll([], es);
    var j := FirstIndex(Keys(m), k);
    assert m[j] == (k, v);
  }

  lemma KeysPrefix<K, V>(es: seq<(K, V)>, n: nat)
    requires n <= |es|
    ensures Keys(es[..n]) == Keys(es)[..n]
  {
  }

  lemma {:induction false} AppendNewMembers<K>(ks: seq<K>, news: seq<K>, x: K)
    ensures x in AppendNew(ks, news) <==> x in ks || x in news
  {
    if |news| > 0 {
      var n := |news| - 1;
      AppendNewMembers(ks, news[..n], x);
      assert news == news[..n] + [news[n]];
    }
  }

  /** The keys after `PutAll` are the old keys followed by the new ones in
      order of first appearance. */
  lemma {:induction false} PutAllKeys<K, V>(m: AList<K, V>, es: seq<(K, V)>)
    ensures Keys(PutAll(m, es)) == AppendNew(Keys(m), Keys(es))
  {
    if |es| > 0 {
      var n := |es| - 1;
      PutAllKeys(m, es[..n]);
      KeysPrefix(es, n);
      PutKeys(PutAll(m, es[..n]), es[n].0, es[n].1);
    }
  }

  /** After `PutAll`, a key holds the value of its last assignment. */
  lemma {:induction false} PutAllGet<K, V>(m: AList<K, V>, es: seq<(K, V)>, k: K)
    ensures Get(PutAll(m, es), k) == if k in Keys(es) then Some(LastValue(es, k)) else Get(m, k)
  {
    if |es| > 0 {
      var n := |es| - 1;
      PutAllGet(m, es[..n], k);
      PutGet(PutAll(m, es[..n]), es[n].0, es[n].1, k);
      assert Keys(es) == Keys(es[..n]) + [es[n].0];
    }
  }

  lemma {:induction false} AppendNewDistinct<K>(ks: seq<K>, news: seq<K>)
    requires Distinct(ks)
    ensures Distinct(AppendNew(ks, news))
  {
    if |news| > 0 {
      AppendNewDistinct(ks, news[..|news| - 1]);
    }
  }

  /** A dictionary built by assignments never holds a key twice. */
  lemma PutAllDistinct<K, V>(m: AList<K, V>, es: seq<(K, V)>)
    requires Distinct(Keys(m))
    ensures Distinct(Keys(PutAll(m, es)))
  {
    PutAllKeys(m, es);
    AppendNewDistinct(Keys(m), Keys(es));
  }

  /** The result of `PutAll` on an empty dictionary is empty exactly when no
      pair was assigned. */
  lemma PutAllEmpty<K, V>(es: seq<(K, V)>)
    ensures |PutAll([], es)| == 0 <==> |es| == 0
  {
    if |es| > 0 {
      var n := |es| - 1;
      assert |Put(PutAll([], es[..n]), es[n].0, es[n].1)| > 0;
    }
  }

  /** Appending an element leaves the first position of earlier ones. */
  lemma FirstIndexSnoc<K>(p: seq<K>, y: K, x: K)
    requires x in p
    ensures FirstIndex(p + [y], x) == FirstIndex(p, x)
  {
    var i := FirstIndex(p, x);
    assert (p + [y])[..i] == p[..i];
    FirstIndexUnique(p + [y], x, i);
  }

  /** Assigning `a`, `b`, then `a` again: `a` keeps its first place and takes
      its last value. */
  lemma PutAllRepeat<K, V>(a: K, b: K, x: V, y: V, z: V)
    requires a != b
    ensures PutAll([], [(a, x), (b, y), (a, z)]) == [(a, z), (b, y)]
  {
    var es := [(a, x), (b, y), (a, z)];
    var m0: AList<K, V> := [];
    var m1: AList<K, V> := [(a, x)];
    var m2 := [(a, x), (b, y)];
    assert es[..2][..1][..0] == [];
    assert PutAll(m0, es[..2][..1]) == Put(m0, a, x) == m1;
    assert Keys(m1) == [a];
    assert PutAll(m0, es[..2]) == Put(m1, b, y) == m2;
    assert Keys(m2) == [a, b];
    assert FirstIndex(Keys(m2), a) == 0;
    assert PutAll(m0, es) == Put(m2, a, z);
  }

  /** `Dedup` keeps each element once, and orders them by first appearance in
      the input: this is the position a repeated key keeps in a dictionary. */
  lemma {:induction false} DedupOrder<K>(ks: seq<K>)
    ensures Distinct(Dedup(ks))
    ensures forall x :: x in Dedup(ks) <==> x in ks
    ensures forall a, b :: 0 <= a < b < |Dedup(ks)| ==>
              FirstIndex(ks, Dedup(ks)[a]) < FirstIndex(ks, Dedup(ks)[b])
  {
    AppendNewDistinct([], ks);
    forall x ensures x in Dedup(ks) <==> x in ks {
      AppendNewMembers([], ks, x);
    }
    if |ks| > 0 {
      var n := |ks| - 1;
      var p := ks[..n];
      DedupOrder(p);
      var d := Dedup(p);
      assert ks == p + [ks[n]];
      forall x | x in p ensures FirstIndex(ks, x) == FirstIndex(p, x) {
        FirstIndexSnoc(p, ks[n], x);
      }
      if ks[n] !in d {
        assert ks[n] !in p;
        FirstIndexUnique(ks, ks[n], n);
        assert Dedup(ks) == d + [ks[n]];
        forall a, b | 0 <= a < b < |Dedup(ks)|
          ensures FirstIndex(ks, Dedup(ks)[a]) < FirstIndex(ks, Dedup(ks)[b])
        {
          assert Dedup(ks)[a] == d[a];
          assert d[a] in d;
          if b < |d| {
            assert Dedup(ks)[b] == d[b];
            assert d[b] in d;
          }
        }
      } else {
        assert Dedup(ks) == d;
        forall a | 0 <= a < |d| ensures d[a] in p {
          assert d[a] in d;
        }
      }
    }
  }

  /** A dictionary filled from an empty one has exactly the distinct keys of
      the assignments, in order of first appearance. */
  lemma FromPairsKeys<K, V>(es: seq<(K, V)>)
    ensures Keys(PutAll([], es)) == Dedup(Keys(es))
  {
    var empty: AList<K, V> := [];
    PutAllKeys(empty, es);
    assert Keys(empty) == [];
  }

  /** `dict` built from a list of assignments: the distinct keys in order of
      first appearance, each holding its last value; empty exactly when there
      are no assignments. */
  lemma FromPairs<K, V>(es: seq<(K, V)>)
    ensures Keys(PutAll([], es)) == Dedup(Keys(es))
    ensures forall k :: k in Keys(es) ==> Get(PutAll([], es), k) == Some(LastValue(es, k))
    ensures |PutAll([], es)| == 0 <==> |es| == 0
  {
    FromPairsKeys(es);
    PutAllEmpty(es);
    forall k | k in Keys(es) ensures Get(PutAll([], es), k) == Some(LastValue(es, k)) {
      PutAllGet([], es, k);
    }
  }
}

=== FILE: data_to_info.dfy ===
/** The pure part of `wbmaker/data_to_info.py`: turning SPARQL bindings or a
    Wikidata entity document into template parameters, and writing those
    parameters out as a MediaWiki template call.

    The network calls (`wb.sparql_query(..., output='raw')`,
    `get_wikidata_item`, the wiki's page store) become inputs: the query
    result and the entity document are given as JSON values, with `JNull`
    standing for the `None` a failed request yields.
 */
module DataToInfo {
  import opened Wrappers
  import opened Text
  import opened JsonValues
  import AssocList

  // ---------------------------------------------------------------------------
  // create_wikitext_template and its inverse
  // ---------------------------------------------------------------------------

  /** One `|name=value` line per parameter, in dictionary order. Each line
      reads back as its parameter when the name holds no `=`. */
  function ParamLines(params: seq<(string, string)>): (lines: seq<string>)
    ensures |lines| == |params|
    ensures forall i :: 0 <= i < |params| ==> lines[i] == "|" + params[i].0 + "=" + params[i].1
    ensures forall i :: 0 <= i < |params| && '=' !in params[i].0 ==> ParseParamLine(lines[i]) == Some(params[i])
  {
    EachParamLineParses(params);
    seq(|params|, i requires 0 <= i < |params| => "|" + params[i].0 + "=" + params[i].1)
  }

  lemma EachParamLineParses(params: seq<(string, string)>)
    ensures forall i :: 0 <= i < |params| && '=' !in params[i].0 ==>
              ParseParamLine("|" + params[i].0 + "=" + params[i].1) == Some(params[i])
  {
    forall i | 0 <= i < |params| && '=' !in params[i].0
      ensures ParseParamLine("|" + params[i].0 + "=" + params[i].1) == Some(params[i])
    {
      ParseParamLineOf(params[i].0, params[i].1);
    }
  }

  /** The lines of a template call: the opening `{{name`, the parameters, the
      closing `}}`. */
  function TemplateLines(name: string, params: seq<(string, string)>): seq<string>
  {
    ["{{" + name] + ParamLines(params) + ["}}"]
  }

  /** `create_wikitext_template(name, params)`. */
  function CreateWikitextTemplate(name: string, params: seq<(string, string)>): (text: string)
    ensures StartsWith(text, "{{" + name)
  {
    var lines := TemplateLines(name, params);
    JoinFirst(lines, '\n');
    Join(lines, '\n')
  }

  lemma {:induction false} JoinFirst(parts: seq<string>, sep: char)
    requires |parts| >= 1
    ensures StartsWith(Join(parts, sep), parts[0])
  {
    var n := |parts| - 1;
    if n > 0 {
      JoinFirst(parts[..n], sep);
    }
  }

  /** Reads one `|name=value` line; the name ends at the first `=`. */
  function ParseParamLine(line: string): Option<(string, string)>
  {
    if |line| >= 1 && line[0] == '|' && '=' in line[1..] then
      var body := line[1..];
      var i := AssocList.FirstIndex(body, '=');
      Some((body[..i], body[i + 1..]))
    else None
  }

  function ParseParamLines(lines: seq<string>): (r: Option<seq<(string, string)>>)
    ensures r.Some? ==> |r.value| == |lines|
  {
    if |lines| == 0 then Some([])
    else
      var init :- ParseParamLines(lines[..|lines| - 1]);
      var p :- ParseParamLine(lines[|lines| - 1]);
      Some(init + [p])
  }

  /** Reads a template call back into its name and parameters. */
  function ParseWikitextTemplate(text: string): Option<(string, seq<(string, string)>)>
  {
    var lines := Split(text, '\n');
    if |lines| >= 2 && StartsWith(lines[0], "{{") && lines[|lines| - 1] == "}}" then
      var params :- ParseParamLines(lines[1..|lines| - 1]);
      Some((lines[0][2..], params))
    else None
  }

  /** No line break in the name or in any parameter. */
  predicate Unbroken(name: string, params: seq<(string, string)>)
  {
    && '\n' !in name
    && forall i :: 0 <= i < |params| ==> '\n' !in params[i].0 && '\n' !in params[i].1
  }

  /** What a template call can carry without ambiguity: no line breaks, and
      no `=` inside a parameter name. */
  predicate Writable(name: string, params: seq<(string, string)>)
  {
    && Unbroken(name, params)
    && forall i :: 0 <= i < |params| ==> '=' !in params[i].0
  }

  lemma ParseParamLineOf(k: string, v: string)
    requires '=' !in k
    ensures ParseParamLine("|" + k + "=" + v) == Some((k, v))
  {
    var line := "|" + k + "=" + v;
    var body := line[1..];
    assert body == k + "=" + v;
    assert body[|k|] == '=';
    assert body[..|k|] == k;
    AssocList.FirstIndexUnique(body, '=', |k|);
  }

  lemma {:induction false} ParseParamLinesOf(params: seq<(string, string)>)
    requires forall i :: 0 <= i < |params| ==> '=' !in params[i].0
    ensures ParseParamLines(ParamLines(params)) == Some(params)
  {
    if |params| > 0 {
      var n := |params| - 1;
      assert ParamLines(params)[..n] == ParamLines(params[..n]);
      ParseParamLinesOf(params[..n]);
      ParseParamLineOf(params[n].0, params[n].1);
      assert params[..n] + [params[n]] == params;
    }
  }

  /** The template text determines the name and the parameters it was
      written from, in order. */
  lemma TemplateRoundTrip(name: string, params: seq<(string, string)>)
    requires Writable(name, params)
    ensures ParseWikitextTemplate(CreateWikitextTemplate(name, params)) == Some((name, params))
  {
    var lines := TemplateLines(name, params);
    TemplateLinesUnbroken(name, params);
    SplitJoin(lines, '\n');
    assert lines[1..|lines| - 1] == ParamLines(params);
    ParseParamLinesOf(params);
    assert lines[0][2..] == name;
  }

  /** The call has one line per parameter plus the opening and closing
      lines. */
  lemma TemplateLineCount(name: string, params: seq<(string, string)>)
    requires Unbroken(name, params)
    ensures |Split(CreateWikitextTemplate(name, params), '\n')| == |params| + 2
  {
    TemplateLinesUnbroken(name, params);
    SplitJoin(TemplateLines(name, params), '\n');
  }

  /** No line of a writable template call holds a line break. */
  lemma TemplateLinesUnbroken(name: string, params: seq<(string, string)>)
    requires Unbroken(name, params)
    ensures forall i :: 0 <= i < |TemplateLines(name, params)| ==> '\n' !in TemplateLines(name, params)[i]
  {
    var lines := TemplateLines(name, params);
    var body := ParamLines(params);
    assert lines == ["{{" + name] + body + ["}}"];
    forall i | 0 <= i < |body| ensures '\n' !in body[i] {
      assert body[i] == "|" + params[i].0 + "=" + params[i].1;
    }
    forall i | 0 <= i < |lines| ensures '\n' !in lines[i] {
      if 0 < i < |lines| - 1 {
        assert lines[i] == body[i - 1];
      }
    }
  }

  // ---------------------------------------------------------------------------
  // get_wikipedia_template
  // ---------------------------------------------------------------------------

  const TemplatePrefix: string := "Template:"

  /** The name with one leading `Template:` removed. */
  function StripTemplatePrefix(name: string): string
  {
    if StartsWith(name, TemplatePrefix) then name[|TemplatePrefix|..] else name
  }

  /** The page `get_wikipedia_template` reads for a given name. */
  function TemplatePageTitle(name: string): (title: string)
    ensures StartsWith(title, TemplatePrefix)
    ensures StartsWith(name, TemplatePrefix) ==> title == name
    ensures !StartsWith(name, TemplatePrefix) ==> title == TemplatePrefix + name
  {
    TemplatePrefix + StripTemplatePrefix(name)
  }

  /** Naming a template with or without its namespace reaches the same page. */
  lemma PrefixedNameSamePage(name: string)
    requires !StartsWith(name, TemplatePrefix)
    ensures TemplatePageTitle(TemplatePrefix + name) == TemplatePageTitle(name)
  {
    assert StartsWith(TemplatePrefix + name, TemplatePrefix);
  }

  /** Only one prefix is removed: `Template:Template:X` names the page
      `Template:Template:X`. */
  lemma StripsOnlyOnce(name: string)
    requires StartsWith(name, TemplatePrefix)
    ensures TemplatePageTitle(TemplatePrefix + name) == TemplatePrefix + name
  {
    assert StartsWith(TemplatePrefix + name, TemplatePrefix);
  }

  /** `get_wikipedia_template(name)`, with the wiki's existing pages given as
      a title -> wikitext map. */
  function GetWikipediaTemplate(name: string, pages: map<string, string>): (r: Option<string>)
    ensures r.Some? <==> TemplatePageTitle(name) in pages
    ensures r.Some? ==> r.value == pages[TemplatePageTitle(name)]
  {
    var title := TemplatePageTitle(name);
    if title in pages then Some(pages[title]) else None
  }

  /** A template named with or without its namespace is fetched alike, and
      a doubled namespace is a different page. */
  lemma EitherNameFetchesSameTemplate(name: string, pages: map<string, string>)
    ensures !StartsWith(name, TemplatePrefix) ==>
              GetWikipediaTemplate(TemplatePrefix + name, pages) == GetWikipediaTemplate(name, pages)
    ensures StartsWith(name, TemplatePrefix) ==>
              GetWikipediaTemplate(TemplatePrefix + name, pages)
              == (if TemplatePrefix + name in pages then Some(pages[TemplatePrefix + name]) else None)
  {
    if StartsWith(name, TemplatePrefix) {
      StripsOnlyOnce(name);
    } else {
      PrefixedNameSamePage(name);
    }
  }

  // ---------------------------------------------------------------------------
  // sparql_to_template_params and fill_template_from_sparql
  // ---------------------------------------------------------------------------

  /** `binding[key]['value']`. */
  function BoundValue(binding: Json, key: string): Py<Json>
  {
    var term :- Field(binding, key);
    Field(term, "value")
  }

  /** One iteration of the bindings loop: the `(param, value)` pair to assign,
      or None when the binding lacks either variable. */
  function BindingEntry(binding: Json): (r: Py<Option<(Json, Json)>>)
    ensures (binding.JObj? && ("param" !in AssocList.Keys(binding.fields) || "value" !in AssocList.Keys(binding.fields)))
              ==> r == Ok(None)
    ensures binding.JObj? && "param" in AssocList.Keys(binding.fields) && "value" in AssocList.Keys(binding.fields) ==>
              && (r.Ok? <==> BoundValue(binding, "param").Ok? && BoundValue(binding, "value").Ok?
                             && Hashable(BoundValue(binding, "param").value))
              && (r.Ok? ==> r == Ok(Some((BoundValue(binding, "param").value, BoundValue(binding, "value").value))))
    ensures r.Ok? && r.value.Some? ==>
              && BoundValue(binding, "param") == Ok(r.value.value.0)
              && BoundValue(binding, "value") == Ok(r.value.value.1)
              && Hashable(r.value.value.0)
  {
    var hasParam :- Has(binding, "param");
    if !hasParam then Ok(None)
    else
      var hasValue :- Has(binding, "value");
      if !hasValue then Ok(None)
      else
        var name :- BoundValue(binding, "param");
        var value :- BoundValue(binding, "value");
        if Hashable(name) then Ok(Some((name, value))) else Raises(TypeError)
  }

  /** The assignments the loop makes: the pairs the bindings contribute, in
      binding order. */
  function Collect(bindings: seq<Json>): (r: Py<seq<(Json, Json)>>)
    ensures r.Ok? <==> forall i :: 0 <= i < |bindings| ==> BindingEntry(bindings[i]).Ok?
    ensures r.Ok? ==> MapPy(BindingEntry, bindings).Ok? && r.value == Somes(MapPy(BindingEntry, bindings).value)
    ensures r.Ok? ==> |r.value| <= |bindings|
    ensures r.Ok? ==> forall i :: 0 <= i < |bindings| && BindingEntry(bindings[i]).value.Some? ==>
              BindingEntry(bindings[i]).value.value in r.value
    ensures r.Ok? ==> forall j :: 0 <= j < |r.value| ==>
              exists i :: 0 <= i < |bindings| && BindingEntry(bindings[i]) == Ok(Some(r.value[j]))
  {
    FilterMapPy(BindingEntry, bindings)
  }

  /** A binding of the shape the query is asked to return:
      `{'param': {'value': p}, 'value': {'value': v}}`. */
  function ParamBinding(p: string, v: string): Json
  {
    JObj([("param", JObj([("value", JStr(p))])), ("value", JObj([("value", JStr(v))]))])
  }

  lemma ParamBindingEntry(p: string, v: string)
    ensures BindingEntry(ParamBinding(p, v)) == Ok(Some((JStr(p), JStr(v))))
  {
    var b := ParamBinding(p, v);
    assert AssocList.Keys(b.fields) == ["param", "value"];
    assert AssocList.Get(b.fields, "param") == Some(JObj([("value", JStr(p))]));
    assert AssocList.Get(b.fields, "value") == Some(JObj([("value", JStr(v))]));
    assert AssocList.Keys([("value", JStr(p))]) == ["value"];
    assert AssocList.Keys([("value", JStr(v))]) == ["value"];
  }

  /** A parameter bound twice keeps the place of its first binding and takes
      the value of its last one. */
  lemma RepeatedParamKeepsPlaceTakesLastValue(p: string, q: string, v1: string, v2: string, v3: string)
    requires p != q
    ensures ParamsFromBindings(JArr([ParamBinding(p, v1), ParamBinding(q, v2), ParamBinding(p, v3)]))
            == Ok(Some([(JStr(p), JStr(v3)), (JStr(q), JStr(v2))]))
  {
    var bs := [ParamBinding(p, v1), ParamBinding(q, v2), ParamBinding(p, v3)];
    CollectThree(p, q, v1, v2, v3);
    AssocList.PutAllRepeat(JStr(p), JStr(q), JStr(v1), JStr(v2), JStr(v3));
    assert Iterate(JArr(bs)) == Ok(bs);
  }

  lemma CollectThree(p: string, q: string, v1: string, v2: string, v3: string)
    ensures FilterMapPy(BindingEntry, [ParamBinding(p, v1), ParamBinding(q, v2), ParamBinding(p, v3)])
            == Ok([(JStr(p), JStr(v1)), (JStr(q), JStr(v2)), (JStr(p), JStr(v3))])
  {
    var bs := [ParamBinding(p, v1), ParamBinding(q, v2), ParamBinding(p, v3)];
    ParamBindingEntry(p, v1);
    ParamBindingEntry(q, v2);
    ParamBindingEntry(p, v3);
    FilterMapPyThree(BindingEntry, bs[0], bs[1], bs[2],
                     (JStr(p), JStr(v1)), (JStr(q), JStr(v2)), (JStr(p), JStr(v3)));
  }

  /** `sparql_to_template_params` once the query has returned `results`. */
  function SparqlToTemplateParams(results: Json): (r: Py<Option<AssocList.AList<Json, Json>>>)
    ensures r.Ok? && r.value.Some? ==> |r.value.value| > 0
    ensures !Truthy(results) ==> r == Ok(None)
    ensures results.JObj? && "results" !in AssocList.Keys(results.fields) ==> r == Ok(None)
    ensures results.JObj? && "results" in AssocList.Keys(results.fields)
            && AssocList.Get(results.fields, "results").value.JObj?
            && "bindings" !in AssocList.Keys(AssocList.Get(results.fields, "results").value.fields)
            ==> r == Ok(None)
  {
    if !Truthy(results) then Ok(None)
    else
      var hasResults :- Has(results, "results");
      if !hasResults then Ok(None)
      else
        var inner :- Field(results, "results");
        var hasBindings :- Has(inner, "bindings");
        if !hasBindings then Ok(None)
        else
          var bindings :- Field(inner, "bindings");
          ParamsFromBindings(bindings)
  }

  /** The loop over the bindings and the final `params if params else None`. */
  function ParamsFromBindings(bindings: Json): (r: Py<Option<AssocList.AList<Json, Json>>>)
    ensures r.Ok? && r.value.Some? ==> |r.value.value| > 0
  {
    if !Truthy(bindings) then Ok(None)
    else
      var items :- Iterate(bindings);
      var entries :- Collect(items);
      var params := AssocList.PutAll([], entries);
      if |params| == 0 then Ok(None) else Ok(Some(params))
  }

  /** A well-formed result: an object whose `results.bindings` is a list. */
  function BindingsList(results: Json): Option<seq<Json>>
  {
    if results.JObj? && "results" in AssocList.Keys(results.fields) then
      var inner := AssocList.Get(results.fields, "results").value;
      if inner.JObj? && "bindings" in AssocList.Keys(inner.fields) then
        var bindings := AssocList.Get(inner.fields, "bindings").value;
        if bindings.JArr? then Some(bindings.items) else None
      else None
    else None
  }

  lemma WellFormedResultReachesLoop(results: Json)
    requires BindingsList(results).Some?
    ensures SparqlToTemplateParams(results) == ParamsFromBindings(JArr(BindingsList(results).value))
  {
    assert Truthy(results);
  }

  /** On a list of bindings the parameters are the dictionary built from the
      pairs of the bindings that carry both variables, taken in binding order:
      each distinct parameter name once, in order of first appearance, holding
      the value of its last binding; and the result is None exactly when no
      binding carries both. */
  lemma ParamsAreLastAssignments(bindings: seq<Json>)
    requires forall i :: 0 <= i < |bindings| ==> BindingEntry(bindings[i]).Ok?
    ensures MapPy(BindingEntry, bindings).Ok?
    ensures ParamsFromBindings(JArr(bindings)).Ok?
    ensures var entries := Somes(MapPy(BindingEntry, bindings).value);
            && (ParamsFromBindings(JArr(bindings)).value.None? <==> |entries| == 0)
            && (|entries| > 0 ==>
                  var params := ParamsFromBindings(JArr(bindings)).value.value;
                  && AssocList.Keys(params) == AssocList.Dedup(AssocList.Keys(entries))
                  && forall k :: k in AssocList.Keys(entries) ==>
                       AssocList.Get(params, k) == Some(AssocList.LastValue(entries, k)))
  {
    var entries := Collect(bindings).value;
    var params := AssocList.PutAll([], entries);
    AssocList.FromPairs(entries);
    if |bindings| > 0 {
      assert Iterate(JArr(bindings)) == Ok(bindings);
    }
    assert ParamsFromBindings(JArr(bindings)) == if |params| == 0 then Ok(None) else Ok(Some(params));
  }

  /** The f-string in `create_wikitext_template` applies `str` to each name
      and value. */
  function RenderParams(params: AssocList.AList<Json, Json>): (r: seq<(string, string)>)
    ensures |r| == |params|
    ensures forall i :: 0 <= i < |params| ==> r[i] == (PyStr(params[i].0), PyStr(params[i].1))
  {
    seq(|params|, i requires 0 <= i < |params| => (PyStr(params[i].0), PyStr(params[i].1)))
  }

  /** Rendering keeps a string name or value as it is, and writes an integer
      as text that `int()` reads back. */
  lemma RenderedParamsReadBack(params: AssocList.AList<Json, Json>)
    ensures |RenderParams(params)| == |params|
    ensures forall i :: 0 <= i < |params| ==>
              && (params[i].0.JStr? ==> RenderParams(params)[i].0 == params[i].0.s)
              && (params[i].1.JStr? ==> RenderParams(params)[i].1 == params[i].1.s)
              && (params[i].0.JNum? ==> ParseInt(RenderParams(params)[i].0) == Some(params[i].0.n))
              && (params[i].1.JNum? ==> ParseInt(RenderParams(params)[i].1) == Some(params[i].1.n))
  {
    forall i | 0 <= i < |params|
      ensures && (params[i].0.JNum? ==> ParseInt(RenderParams(params)[i].0) == Some(params[i].0.n))
              && (params[i].1.JNum? ==> ParseInt(RenderParams(params)[i].1) == Some(params[i].1.n))
    {
      PyStrReadsBack(params[i].0);
      PyStrReadsBack(params[i].1);
    }
  }

  /** `fill_template_from_sparql(qid, name, query)` once the query has
      returned `results`. */
  function FillTemplateFromSparql(results: Json, name: string): (r: Py<Option<string>>)
    ensures r.Ok? <==> SparqlToTemplateParams(results).Ok?
    ensures r.Ok? ==> (r.value.Some? <==> SparqlToTemplateParams(results).value.Some?)
    ensures r.Ok? && r.value.Some? ==>
              r.value.value == CreateWikitextTemplate(name, RenderParams(SparqlToTemplateParams(results).value.value))
  {
    var params :- SparqlToTemplateParams(results);
    if params.None? || |params.value| == 0 then Ok(None)
    else Ok(Some(CreateWikitextTemplate(name, RenderParams(params.value))))
  }

  /** The filled template reads back as the named template with exactly the
      query's parameters, rendered as text, in dictionary order. */
  lemma FilledFromSparqlReadsBack(results: Json, name: string)
    requires SparqlToTemplateParams(results).Ok? && SparqlToTemplateParams(results).value.Some?
    requires Writable(name, RenderParams(SparqlToTemplateParams(results).value.value))
    ensures FillTemplateFromSparql(results, name).Ok?
    ensures ParseWikitextTemplate(FillTemplateFromSparql(results, name).value.value)
            == Some((name, RenderParams(SparqlToTemplateParams(results).value.value)))
  {
    TemplateRoundTrip(name, RenderParams(SparqlToTemplateParams(results).value.value));
  }

  // ---------------------------------------------------------------------------
  // fill_template_from_item_data
  // ---------------------------------------------------------------------------

  /** The four value keys, in the order the code tries them. */
  const ValueKeys: seq<string> := ["id", "time", "text", "amount"]

  /** The text a claim's `datavalue.value` contributes: the string itself, or
      the first of `id`, `time`, `text`, `amount` that the dict holds. */
  function ClaimValue(value: Json): (r: Option<Json>)
    ensures value.JStr? ==> r == Some(value)
    ensures !value.JStr? && !value.JObj? ==> r.None?
  {
    match value
    case JStr(_) => Some(value)
    case JObj(fs) =>
      if "id" in AssocList.Keys(fs) then AssocList.Get(fs, "id")
      else if "time" in AssocList.Keys(fs) then AssocList.Get(fs, "time")
      else if "text" in AssocList.Keys(fs) then AssocList.Get(fs, "text")
      else if "amount" in AssocList.Keys(fs) then AssocList.Get(fs, "amount")
      else None
    case _ => None
  }

  /** Reference definition: the value under the first key of `keys` that the
      dictionary holds. */
  function FirstPresent(fs: AssocList.AList<string, Json>, keys: seq<string>): Option<Json>
  {
    if |keys| == 0 then None
    else if keys[0] in AssocList.Keys(fs) then AssocList.Get(fs, keys[0])
    else FirstPresent(fs, keys[1..])
  }

  /** A dict value contributes the entry of highest priority among `id`,
      `time`, `text`, `amount`, and nothing when it has none of them. */
  lemma ClaimValueByPriority(fs: AssocList.AList<string, Json>)
    ensures ClaimValue(JObj(fs)) == FirstPresent(fs, ValueKeys)
    ensures ClaimValue(JObj(fs)).None? <==> forall k :: k in ValueKeys ==> k !in AssocList.Keys(fs)
  {
    var ks: seq<string> := [];
    assert FirstPresent(fs, ["amount"]) == if "amount" in AssocList.Keys(fs) then AssocList.Get(fs, "amount") else None by {
      assert ["amount"][1..] == ks;
    }
    assert FirstPresent(fs, ["text", "amount"]) == if "text" in AssocList.Keys(fs) then AssocList.Get(fs, "text") else FirstPresent(fs, ["amount"]) by {
      assert ["text", "amount"][1..] == ["amount"];
    }
    assert FirstPresent(fs, ["time", "text", "amount"]) == if "time" in AssocList.Keys(fs) then AssocList.Get(fs, "time") else FirstPresent(fs, ["text", "amount"]) by {
      assert ["time", "text", "amount"][1..] == ["text", "amount"];
    }
    assert ValueKeys[1..] == ["time", "text", "amount"];
  }

  /** `d[key]` when `d` is a dict holding `key`. */
  function DictField(d: Json, key: string): Option<Json>
  {
    if d.JObj? && key in AssocList.Keys(d.fields) then AssocList.Get(d.fields, key) else None
  }

  /** The first statement of `pid` when the claims are a dict holding a
      non-empty list for it. */
  function FirstStatement(claims: Json, pid: string): Option<Json>
  {
    var statements :- DictField(claims, pid);
    if statements.JArr? && |statements.items| > 0 then Some(statements.items[0]) else None
  }

  /** `claims[pid][0]['mainsnak']['datavalue']['value']` when each step is a
      dict lookup that finds its key. */
  function ClaimDataValue(claims: Json, pid: string): Option<Json>
  {
    var claim :- FirstStatement(claims, pid);
    var mainsnak :- DictField(claim, "mainsnak");
    var datavalue :- DictField(mainsnak, "datavalue");
    DictField(datavalue, "value")
  }

  /** The body of the mapping loop for one property: the first claim's value,
      or None when the item has no such claim or the claim has no data. */
  function PropertyValue(claims: Json, pid: string): Py<Option<Json>>
  {
    var present :- Has(claims, pid);
    if !present then Ok(None)
    else
      var statements :- Field(claims, pid);
      var claim :- Subscript(statements, JNum(0));
      var hasMainsnak :- Has(claim, "mainsnak");
      if !hasMainsnak then Ok(None)
      else
        var mainsnak :- Field(claim, "mainsnak");
        var hasData :- Has(mainsnak, "datavalue");
        if !hasData then Ok(None)
        else
          var datavalue :- Field(mainsnak, "datavalue");
          var value :- Field(datavalue, "value");
          Ok(ClaimValue(value))
  }

  /** The value read for a property is that of its first statement's main
      snak, passed through `ClaimValue`; a value is never read from anywhere
      else, and a property that is absent, a first statement without a
      `mainsnak`, or a main snak without a `datavalue` is skipped. */
  lemma PropertyValueReadsMainsnak(claims: Json, pid: string)
    ensures ClaimDataValue(claims, pid).Some? ==>
              PropertyValue(claims, pid) == Ok(ClaimValue(ClaimDataValue(claims, pid).value))
    ensures PropertyValue(claims, pid).Ok? && PropertyValue(claims, pid).value.Some? ==>
              ClaimDataValue(claims, pid).Some?
    ensures claims.JObj? && pid !in AssocList.Keys(claims.fields) ==> PropertyValue(claims, pid) == Ok(None)
    ensures (&& FirstStatement(claims, pid).Some? && FirstStatement(claims, pid).value.JObj?
             && "mainsnak" !in AssocList.Keys(FirstStatement(claims, pid).value.fields))
            ==> PropertyValue(claims, pid) == Ok(None)
    ensures (&& FirstStatement(claims, pid).Some?
             && DictField(FirstStatement(claims, pid).value, "mainsnak").Some?
             && DictField(FirstStatement(claims, pid).value, "mainsnak").value.JObj?
             && "datavalue" !in AssocList.Keys(DictField(FirstStatement(claims, pid).value, "mainsnak").value.fields))
            ==> PropertyValue(claims, pid) == Ok(None)
  {
  }

  /** A statement as the Wikidata API returns it: a main snak that holds
      `value`, or, for an unknown-value or no-value snak, no `datavalue`. */
  function ApiStatement(value: Option<Json>): Json
  {
    match value
    case Some(v) => JObj([("mainsnak", JObj([("snaktype", JStr("value")), ("datavalue", JObj([("value", v)]))]))])
    case None => JObj([("mainsnak", JObj([("snaktype", JStr("somevalue"))]))])
  }

  /** A property whose first statement has the API's shape gives what
      `ClaimValue` makes of its `datavalue.value`, whatever follows it, and
      nothing when that snak carries no data. */
  lemma ApiStatementRead(fs: AssocList.AList<string, Json>, pid: string, value: Option<Json>, rest: seq<Json>)
    requires AssocList.Get(fs, pid) == Some(JArr([ApiStatement(value)] + rest))
    ensures value.Some? ==> PropertyValue(JObj(fs), pid) == Ok(ClaimValue(value.value))
    ensures value.None? ==> PropertyValue(JObj(fs), pid) == Ok(None)
  {
    var claim := ApiStatement(value);
    assert FirstStatement(JObj(fs), pid) == Some(claim);
    assert AssocList.Keys(claim.fields) == ["mainsnak"];
    var mainsnak := claim.fields[0].1;
    assert DictField(claim, "mainsnak") == Some(mainsnak);
    if value.Some? {
      var datavalue := JObj([("value", value.value)]);
      assert AssocList.Keys(mainsnak.fields) == ["snaktype", "datavalue"];
      assert AssocList.FirstIndex(AssocList.Keys(mainsnak.fields), "datavalue") == 1;
      assert DictField(mainsnak, "datavalue") == Some(datavalue);
      assert AssocList.Keys(datavalue.fields) == ["value"];
      assert ClaimDataValue(JObj(fs), pid) == Some(value.value);
    } else {
      assert AssocList.Keys(mainsnak.fields) == ["snaktype"];
    }
    PropertyValueReadsMainsnak(JObj(fs), pid);
  }

  /** Only the first statement of a property is read: two items whose
      statement lists for `pid` start alike give the same value. */
  lemma OnlyFirstStatementCounts(fs: AssocList.AList<string, Json>, gs: AssocList.AList<string, Json>,
                                 pid: string, a: seq<Json>, b: seq<Json>)
    requires AssocList.Get(fs, pid) == Some(JArr(a)) && AssocList.Get(gs, pid) == Some(JArr(b))
    requires |a| > 0 && |b| > 0 && a[0] == b[0]
    ensures PropertyValue(JObj(fs), pid) == PropertyValue(JObj(gs), pid)
  {
  }

  /** An empty statement list makes the code raise IndexError. */
  lemma EmptyStatementListRaises(fs: AssocList.AList<string, Json>, pid: string)
    requires AssocList.Get(fs, pid) == Some(JArr([]))
    ensures PropertyValue(JObj(fs), pid) == Raises(IndexError)
  {
  }

  /** The assignments of the mapping loop, in mapping order. */
  function MapClaims(mapping: seq<(string, string)>, claims: Json): (r: Py<seq<(string, Json)>>)
    ensures r.Ok? <==> forall i :: 0 <= i < |mapping| ==> PropertyValue(claims, mapping[i].1).Ok?
    ensures r.Ok? ==> MapPy(m => ClaimEntry(claims, m), mapping).Ok?
                      && r.value == Somes(MapPy(m => ClaimEntry(claims, m), mapping).value)
    ensures r.Ok? ==> |r.value| <= |mapping|
    ensures r.Ok? ==> forall i :: 0 <= i < |mapping| && PropertyValue(claims, mapping[i].1).value.Some? ==>
              (mapping[i].0, PropertyValue(claims, mapping[i].1).value.value) in r.value
    ensures r.Ok? ==> forall j :: 0 <= j < |r.value| ==>
              exists i :: 0 <= i < |mapping| && mapping[i].0 == r.value[j].0
                          && PropertyValue(claims, mapping[i].1) == Ok(Some(r.value[j].1))
  {
    FilterMapPy(m => ClaimEntry(claims, m), mapping)
  }

  /** One iteration of the mapping loop: the parameter and the value it is
      assigned, or None when the property gives no value. */
  function ClaimEntry(claims: Json, m: (string, string)): (r: Py<Option<(string, Json)>>)
    ensures r.Ok? <==> PropertyValue(claims, m.1).Ok?
    ensures r.Ok? ==> (r.value.Some? <==> PropertyValue(claims, m.1).value.Some?)
    ensures r.Ok? && r.value.Some? ==> r.value.value == (m.0, PropertyValue(claims, m.1).value.value)
  {
    var v :- PropertyValue(claims, m.1);
    Ok(if v.Some? then Some((m.0, v.value)) else None)
  }

  /** `fill_template_from_item_data(qid, name, mapping)` once
      `get_wikidata_item(qid)` has returned `itemData`. */
  function FillTemplateFromItemData(qid: string, name: string, mapping: seq<(string, string)>,
                                    itemData: Json): (r: Py<Option<string>>)
    ensures !Truthy(itemData) ==> r == Ok(None)
    ensures itemData.JObj? && "entities" !in AssocList.Keys(itemData.fields) ==> r == Ok(None)
    ensures itemData.JObj? && "entities" in AssocList.Keys(itemData.fields)
            && AssocList.Get(itemData.fields, "entities").value.JObj?
            && qid !in AssocList.Keys(AssocList.Get(itemData.fields, "entities").value.fields)
            ==> r == Ok(None)
  {
    if !Truthy(itemData) then Ok(None)
    else
      var hasEntities :- Has(itemData, "entities");
      if !hasEntities then Ok(None)
      else
        var entities :- Field(itemData, "entities");
        var hasItem :- Has(entities, qid);
        if !hasItem then Ok(None)
        else
          var entity :- Field(entities, qid);
          var claims :- DictGet(entity, "claims", JObj([]));
          FillFromClaims(name, mapping, claims)
  }

  /** The mapping loop and the template it fills. */
  function FillFromClaims(name: string, mapping: seq<(string, string)>, claims: Json): (r: Py<Option<string>>)
    ensures r.Ok? <==> MapClaims(mapping, claims).Ok?
  {
    var params :- ClaimParams(mapping, claims);
    if |params| == 0 then Ok(None)
    else Ok(Some(CreateWikitextTemplate(name, RenderParams(KeysAsJson(params)))))
  }

  /** The `params` dict the loop builds: each mapped property's value
      assigned to its parameter name, in mapping order. */
  function ClaimParams(mapping: seq<(string, string)>, claims: Json): Py<AssocList.AList<string, Json>>
  {
    var entries :- MapClaims(mapping, claims);
    Ok(AssocList.PutAll([], entries))
  }

  /** The string-keyed parameters as the JSON-keyed form `RenderParams` takes. */
  function KeysAsJson(params: AssocList.AList<string, Json>): (r: AssocList.AList<Json, Json>)
    ensures |r| == |params|
    ensures forall i :: 0 <= i < |params| ==> r[i] == (JStr(params[i].0), params[i].1)
  {
    seq(|params|, i requires 0 <= i < |params| => (JStr(params[i].0), params[i].1))
  }

  /** A template is produced exactly when at least one mapped property has a
      value; otherwise the result is None. */
  lemma TemplateIffSomeValue(name: string, mapping: seq<(string, string)>, claims: Json)
    requires MapClaims(mapping, claims).Ok?
    ensures FillFromClaims(name, mapping, claims).value.Some? <==>
              exists i :: 0 <= i < |mapping| && PropertyValue(claims, mapping[i].1).value.Some?
  {
    var entries := MapClaims(mapping, claims).value;
    AssocList.PutAllEmpty(entries);
    if |entries| > 0 {
      var i :| 0 <= i < |mapping| && mapping[i].0 == entries[0].0
                && PropertyValue(claims, mapping[i].1) == Ok(Some(entries[0].1));
    }
  }

  /** Parameter `p` holds value `v` because some mapped property of that
      parameter has value `v`. */
  predicate MappedValue(mapping: seq<(string, string)>, claims: Json, p: string, v: Json)
  {
    exists i :: 0 <= i < |mapping| && mapping[i].0 == p && PropertyValue(claims, mapping[i].1) == Ok(Some(v))
  }

  /** Every parameter of `ps` is a mapped parameter with a value, holding
      that value rendered with `str()`. */
  predicate FromMappedValues(mapping: seq<(string, string)>, claims: Json, ps: seq<(string, string)>)
  {
    forall j :: 0 <= j < |ps| ==> RenderedMappedValue(mapping, claims, ps[j])
  }

  /** The parameter `e` is a mapped parameter with a value, holding that
      value rendered with `str()`. */
  predicate RenderedMappedValue(mapping: seq<(string, string)>, claims: Json, e: (string, string))
  {
    exists i :: && 0 <= i < |mapping| && mapping[i].0 == e.0
                && PropertyValue(claims, mapping[i].1).Ok?
                && PropertyValue(claims, mapping[i].1).value.Some?
                && e.1 == PyStr(PropertyValue(claims, mapping[i].1).value.value)
  }

  /** Every mapped parameter with a value is in `ps`, holding that value
      rendered with `str()`. */
  predicate HoldsMappedValues(mapping: seq<(string, string)>, claims: Json, ps: seq<(string, string)>)
  {
    forall i :: && 0 <= i < |mapping| && PropertyValue(claims, mapping[i].1).Ok?
                && PropertyValue(claims, mapping[i].1).value.Some? ==>
      (mapping[i].0, PyStr(PropertyValue(claims, mapping[i].1).value.value)) in ps
  }

  /** The collected parameters invent nothing: each name appears once and
      holds the value of a mapped property of that name. */
  lemma ClaimParamsFromMapping(mapping: seq<(string, string)>, claims: Json)
    requires ClaimParams(mapping, claims).Ok?
    ensures AssocList.Distinct(AssocList.Keys(ClaimParams(mapping, claims).value))
    ensures forall e :: e in ClaimParams(mapping, claims).value ==> MappedValue(mapping, claims, e.0, e.1)
  {
    var entries := MapClaims(mapping, claims).value;
    var empty: AssocList.AList<string, Json> := [];
    AssocList.PutAllDistinct(empty, entries);
    AssocList.PutAllEntriesFrom(empty, entries);
    MapClaimsEntriesMapped(mapping, claims);
  }

  /** Each assignment of the mapping loop is a mapped value. */
  lemma MapClaimsEntriesMapped(mapping: seq<(string, string)>, claims: Json)
    requires MapClaims(mapping, claims).Ok?
    ensures forall e :: e in MapClaims(mapping, claims).value ==> MappedValue(mapping, claims, e.0, e.1)
  {
    var entries := MapClaims(mapping, claims).value;
    forall e | e in entries ensures MappedValue(mapping, claims, e.0, e.1) {
      var k :| 0 <= k < |entries| && entries[k] == e;
    }
  }

  /** With distinct parameter names, as a dict's are, a mapped property with
      a value puts exactly that value under its parameter. */
  lemma ClaimParamHoldsValue(mapping: seq<(string, string)>, claims: Json, i: nat)
    requires ClaimParams(mapping, claims).Ok? && AssocList.Distinct(AssocList.Keys(mapping))
    requires i < |mapping| && PropertyValue(claims, mapping[i].1).value.Some?
    ensures (mapping[i].0, PropertyValue(claims, mapping[i].1).value.value) in ClaimParams(mapping, claims).value
  {
    var entries := MapClaims(mapping, claims).value;
    var key := mapping[i].0;
    var v := PropertyValue(claims, mapping[i].1).value.value;
    forall e | e in entries && e.0 == key ensures e.1 == v {
      MappedEntryValue(mapping, claims, i, e);
    }
    assert (key, v) in entries;
    AssocList.PutAllSingleValue(entries, key, v);
  }

  /** With distinct parameter names, an assignment of the mapping loop to a
      parameter holds the value of that parameter's property. */
  lemma MappedEntryValue(mapping: seq<(string, string)>, claims: Json, i: nat, e: (string, Json))
    requires MapClaims(mapping, claims).Ok? && AssocList.Distinct(AssocList.Keys(mapping))
    requires i < |mapping| && e in MapClaims(mapping, claims).value && e.0 == mapping[i].0
    ensures PropertyValue(claims, mapping[i].1) == Ok(Some(e.1))
  {
    var entries := MapClaims(mapping, claims).value;
    var k :| 0 <= k < |entries| && entries[k] == e;
    var i2 :| && 0 <= i2 < |mapping| && mapping[i2].0 == e.0
              && PropertyValue(claims, mapping[i2].1) == Ok(Some(e.1));
    assert AssocList.Keys(mapping)[i2] == AssocList.Keys(mapping)[i];
  }

  /** The rendered parameters of the filled template: each comes from a
      mapped property with a value, and none breaks the template's layout. */
  lemma RenderedClaimParams(name: string, mapping: seq<(string, string)>, claims: Json)
    requires ClaimParams(mapping, claims).Ok?
    requires '\n' !in name
    requires forall i :: 0 <= i < |mapping| ==> '=' !in mapping[i].0 && '\n' !in mapping[i].0
    requires forall i :: 0 <= i < |mapping| && PropertyValue(claims, mapping[i].1).value.Some? ==>
               '\n' !in PyStr(PropertyValue(claims, mapping[i].1).value.value)
    ensures var rendered := RenderParams(KeysAsJson(ClaimParams(mapping, claims).value));
            && Writable(name, rendered)
            && AssocList.Distinct(AssocList.Keys(rendered))
            && FromMappedValues(mapping, claims, rendered)
  {
    ClaimParamsFromMapping(mapping, claims);
    RenderedMappedParams(name, mapping, claims, ClaimParams(mapping, claims).value);
  }

  /** Parameters that all hold mapped values render within the template's
      layout, each from a mapped property. */
  lemma RenderedMappedParams(name: string, mapping: seq<(string, string)>, claims: Json,
                             params: AssocList.AList<string, Json>)
    requires AssocList.Distinct(AssocList.Keys(params))
    requires forall e :: e in params ==> MappedValue(mapping, claims, e.0, e.1)
    requires '\n' !in name
    requires forall i :: 0 <= i < |mapping| ==> '=' !in mapping[i].0 && '\n' !in mapping[i].0
    requires forall i :: && 0 <= i < |mapping| && PropertyValue(claims, mapping[i].1).Ok?
                         && PropertyValue(claims, mapping[i].1).value.Some? ==>
               '\n' !in PyStr(PropertyValue(claims, mapping[i].1).value.value)
    ensures var rendered := RenderParams(KeysAsJson(params));
            && Writable(name, rendered)
            && AssocList.Distinct(AssocList.Keys(rendered))
            && FromMappedValues(mapping, claims, rendered)
  {
    var rendered := RenderParams(KeysAsJson(params));
    forall j | 0 <= j < |rendered|
      ensures RenderedMappedValue(mapping, claims, rendered[j])
      ensures '=' !in rendered[j].0 && '\n' !in rendered[j].0 && '\n' !in rendered[j].1
    {
      assert params[j] in params;
      assert rendered[j] == (params[j].0, PyStr(params[j].1));
      var i :| && 0 <= i < |mapping| && mapping[i].0 == params[j].0
               && PropertyValue(claims, mapping[i].1) == Ok(Some(params[j].1));
    }
    assert AssocList.Keys(rendered) == AssocList.Keys(params);
  }

  /** The rendered parameters come in the order the mapping loop first
      assigns them. */
  lemma RenderedClaimParamsOrder(mapping: seq<(string, string)>, claims: Json)
    requires ClaimParams(mapping, claims).Ok?
    ensures AssocList.Keys(RenderParams(KeysAsJson(ClaimParams(mapping, claims).value)))
            == AssocList.Dedup(AssocList.Keys(MapClaims(mapping, claims).value))
  {
    AssocList.FromPairsKeys(MapClaims(mapping, claims).value);
    RenderedKeys(ClaimParams(mapping, claims).value);
  }

  /** Rendering keeps the parameter names and their order. */
  lemma RenderedKeys(params: AssocList.AList<string, Json>)
    ensures AssocList.Keys(RenderParams(KeysAsJson(params))) == AssocList.Keys(params)
  {
    var rendered := RenderParams(KeysAsJson(params));
    forall j | 0 <= j < |params| ensures AssocList.Keys(rendered)[j] == AssocList.Keys(params)[j] {
      assert rendered[j] == (params[j].0, PyStr(params[j].1));
    }
  }

  /** The template filled from an entity's claims reads back as the named
      template whose parameters, each named once, are mapped parameters with
      a value, rendered with `str()`, in the order the mapping first assigns
      them; when the mapping's names are distinct, as a dict's are, every
      mapped parameter with a value is among them holding its property's
      value. */
  lemma FilledFromClaimsReadsBack(name: string, mapping: seq<(string, string)>, claims: Json)
    requires MapClaims(mapping, claims).Ok? && FillFromClaims(name, mapping, claims).value.Some?
    requires '\n' !in name
    requires forall i :: 0 <= i < |mapping| ==> '=' !in mapping[i].0 && '\n' !in mapping[i].0
    requires forall i :: 0 <= i < |mapping| && PropertyValue(claims, mapping[i].1).value.Some? ==>
               '\n' !in PyStr(PropertyValue(claims, mapping[i].1).value.value)
    ensures var parsed := ParseWikitextTemplate(FillFromClaims(name, mapping, claims).value.value);
            && parsed.Some? && parsed.value.0 == name
            && AssocList.Distinct(AssocList.Keys(parsed.value.1))
            && FromMappedValues(mapping, claims, parsed.value.1)
            && AssocList.Keys(parsed.value.1) == AssocList.Dedup(AssocList.Keys(MapClaims(mapping, claims).value))
            && (AssocList.Distinct(AssocList.Keys(mapping)) ==> HoldsMappedValues(mapping, claims, parsed.value.1))
  {
    var params := ClaimParams(mapping, claims).value;
    var rendered := RenderParams(KeysAsJson(params));
    assert FillFromClaims(name, mapping, claims).value.value == CreateWikitextTemplate(name, rendered);
    RenderedClaimParams(name, mapping, claims);
    RenderedClaimParamsOrder(mapping, claims);
    TemplateRoundTrip(name, rendered);
    if AssocList.Distinct(AssocList.Keys(mapping)) {
      RenderedClaimParamsHoldValues(mapping, claims);
    }
  }

  lemma RenderedClaimParamsHoldValues(mapping: seq<(string, string)>, claims: Json)
    requires ClaimParams(mapping, claims).Ok? && AssocList.Distinct(AssocList.Keys(mapping))
    ensures HoldsMappedValues(mapping, claims, RenderParams(KeysAsJson(ClaimParams(mapping, claims).value)))
  {
    var params := ClaimParams(mapping, claims).value;
    var rendered := RenderParams(KeysAsJson(params));
    forall i | 0 <= i < |mapping| && PropertyValue(claims, mapping[i].1).value.Some?
      ensures (mapping[i].0, PyStr(PropertyValue(claims, mapping[i].1).value.value)) in rendered
    {
      ClaimParamHoldsValue(mapping, claims, i);
      RenderedParamIn(params, (mapping[i].0, PropertyValue(claims, mapping[i].1).value.value));
    }
  }

  /** An entry of the parameters appears, rendered, among the rendered ones. */
  lemma RenderedParamIn(params: AssocList.AList<string, Json>, e: (string, Json))
    requires e in params
    ensures (e.0, PyStr(e.1)) in RenderParams(KeysAsJson(params))
  {
    var j :| 0 <= j < |params| && params[j] == e;
    assert RenderParams(KeysAsJson(params))[j] == (e.0, PyStr(e.1));
  }

  /** The claims of an entity, `entity.get('claims', {})`. */
  function ClaimsOf(entity: AssocList.AList<string, Json>): Json
  {
    if "claims" in AssocList.Keys(entity) then AssocList.Get(entity, "claims").value else JObj([])
  }

  /** For an item document whose `entities` object holds the requested
      entity, the result is the template filled from that entity's claims
      (`{}` when it has none); an entity that is not an object has no `get`. */
  lemma FoundItemFillsFromItsClaims(qid: string, name: string, mapping: seq<(string, string)>,
                                    doc: AssocList.AList<string, Json>,
                                    entities: AssocList.AList<string, Json>, entity: Json)
    requires AssocList.Get(doc, "entities") == Some(JObj(entities))
    requires AssocList.Get(entities, qid) == Some(entity)
    ensures entity.JObj? ==>
              FillTemplateFromItemData(qid, name, mapping, JObj(doc)) == FillFromClaims(name, mapping, ClaimsOf(entity.fields))
    ensures !entity.JObj? ==> FillTemplateFromItemData(qid, name, mapping, JObj(doc)) == Raises(AttributeError)
  {
  }
}

=== FILE: item.dfy ===
/** The pure part of `wbmaker/item.py`: preparing the claims of an item
    description (`identify_data`, `build_statement`), matching and updating
    claims on an item (`get_value`, `process_claim`), and the label, alias and
    description handling of `Item.__init__`.

    The Wikibase client library is not part of this model. Its statement
    objects are the `Snak` and `Claim` datatypes below, its value encoding
    (`set_value`, which may refuse a value) is the parameter `enc`, and its claim, qualifier and
    reference containers are sequences that `add` appends to. Resolving a
    property name to its identifier and data type needs the Wikibase
    instance, so claim descriptions arrive with both already resolved.
 */
module ItemModel {
  import opened Wrappers
  import opened Text
  import opened JsonValues
  import Wb

  // ---------------------------------------------------------------------------
  // Statements
  // ---------------------------------------------------------------------------

  datatype SnakType = KnownValue | UnknownValue | NoValue

  /** The statement classes `build_statement` can construct. */
  datatype Kind =
    | ItemKind
    | UrlKind
    | ExternalIdKind
    | StringKind
    | MonolingualTextKind(language: string)
    | TimeKind
    | QuantityKind

  /** A statement's main part: its property, snak type and the encoded data
      value (an empty object until a value is set). */
  datatype Snak = Snak(kind: Kind, pid: string, snaktype: SnakType, datavalue: Json)

  /** A claim on an item, with its qualifiers and references; each reference
      is a single snak. */
  datatype Claim = Claim(mainsnak: Snak, qualifiers: seq<Snak>, references: seq<Snak>)

  /** A value in an item description: a string, an integer (after `int()`),
      or a `datetime`. */
  datatype Value = VStr(s: string) | VInt(n: int) | VDate(date: Wb.DateTime)

  /** The encoding the client library applies in `set_value`; it raises for a
      value the data type does not accept. */
  type Encoder = (Kind, Value) -> Py<Json>

  /** The statement class for a data type name; None for any other name. */
  function KindOf(ptype: string): (k: Option<Kind>)
    ensures k.Some? && k.value.MonolingualTextKind? ==> k.value.language == "en"
  {
    if ptype == "ITEM" then Some(ItemKind)
    else if ptype == "URL" then Some(UrlKind)
    else if ptype == "EXTERNALID" then Some(ExternalIdKind)
    else if ptype == "STRING" then Some(StringKind)
    else if ptype == "MONOLINGUALTEXT" then Some(MonolingualTextKind("en"))
    else if ptype == "TIME" then Some(TimeKind)
    else if ptype == "QUANTITY" then Some(QuantityKind)
    else None
  }

  /** The data type name a statement class is chosen for. */
  function KindName(k: Kind): string
  {
    match k
    case ItemKind => "ITEM"
    case UrlKind => "URL"
    case ExternalIdKind => "EXTERNALID"
    case StringKind => "STRING"
    case MonolingualTextKind(_) => "MONOLINGUALTEXT"
    case TimeKind => "TIME"
    case QuantityKind => "QUANTITY"
  }

  /** The seven recognised names and the statement classes correspond one to
      one (monolingual text always in English). */
  lemma KindNamesCorrespond(ptype: string, k: Kind)
    ensures KindOf(ptype) == Some(k) <==>
              ptype == KindName(k) && (k.MonolingualTextKind? ==> k.language == "en")
  {
  }

  const SpecialPrefix: string := "SPECIAL:"
  const UnknownMarker: string := "SPECIAL:UNKNOWN_VALUE"
  const NoValueMarker: string := "SPECIAL:NO_VALUE"

  /** A string value that stands for a snak type rather than a value. */
  predicate IsSpecial(v: Value)
  {
    v.VStr? && StartsWith(v.s, SpecialPrefix)
  }

  /** The snak type `build_statement` picks for a value. */
  function SnakTypeOf(value: Option<Value>): (t: SnakType)
    ensures t != KnownValue ==> value.Some? && IsSpecial(value.value)
    ensures t == UnknownValue <==> value == Some(VStr(UnknownMarker))
    ensures t == NoValue <==> value == Some(VStr(NoValueMarker))
  {
    if value == Some(VStr(UnknownMarker)) then UnknownValue
    else if value == Some(VStr(NoValueMarker)) then NoValue
    else KnownValue
  }

  /** The marker string that requests a snak type. */
  function MarkerOf(t: SnakType): Option<Value>
  {
    match t
    case KnownValue => None
    case UnknownValue => Some(VStr(UnknownMarker))
    case NoValue => Some(VStr(NoValueMarker))
  }

  /** The two markers select exactly the two special snak types; every other
      value, including any other `SPECIAL:` string, and None give a known
      value. */
  lemma SnakTypeMarkers(t: SnakType, v: Value)
    ensures t != KnownValue ==> SnakTypeOf(MarkerOf(t)) == t
    ensures SnakTypeOf(None) == KnownValue
    ensures SnakTypeOf(Some(v)) == KnownValue <==> v != VStr(UnknownMarker) && v != VStr(NoValueMarker)
  {
  }

  // ---------------------------------------------------------------------------
  // get_value
  // ---------------------------------------------------------------------------

  /** `get_value(statement)`: the main value as a string, or the first of
      `id`, `text`, `time`, `amount` in a dict value, else None. A snak
      without a data value has no `value` entry: KeyError. */
  function GetValue(c: Claim): (r: Py<Json>)
    ensures !c.mainsnak.datavalue.JObj? || "value" !in AssocList.Keys(c.mainsnak.datavalue.fields) ==> r.Raises?
    ensures r.Ok? && r.value != JNull ==> Field(c.mainsnak.datavalue, "value").Ok?
  {
    var value :- Field(c.mainsnak.datavalue, "value");
    match value
    case JStr(_) => Ok(value)
    case JObj(fs) =>
      if "id" in AssocList.Keys(fs) then Ok(AssocList.Get(fs, "id").value)
      else if "text" in AssocList.Keys(fs) then Ok(AssocList.Get(fs, "text").value)
      else if "time" in AssocList.Keys(fs) then Ok(AssocList.Get(fs, "time").value)
      else if "amount" in AssocList.Keys(fs) then Ok(AssocList.Get(fs, "amount").value)
      else Ok(JNull)
    case _ => Ok(JNull)
  }

  /** Reference definition: the value under the first key of `keys` present. */
  function FirstKeyValue(fs: AssocList.AList<string, Json>, keys: seq<string>): Json
  {
    if |keys| == 0 then JNull
    else if keys[0] in AssocList.Keys(fs) then AssocList.Get(fs, keys[0]).value
    else FirstKeyValue(fs, keys[1..])
  }

  const GetValueKeys: seq<string> := ["id", "text", "time", "amount"]

  /** A dict value yields its entry of highest priority among `id`, `text`,
      `time`, `amount`; a string yields itself; anything else None. */
  lemma GetValueByPriority(c: Claim, value: Json)
    requires Field(c.mainsnak.datavalue, "value") == Ok(value)
    ensures value.JStr? ==> GetValue(c) == Ok(value)
    ensures value.JObj? ==> GetValue(c) == Ok(FirstKeyValue(value.fields, GetValueKeys))
    ensures !value.JStr? && !value.JObj? ==> GetValue(c) == Ok(JNull)
  {
    if value.JObj? {
      var fs := value.fields;
      var empty: seq<string> := [];
      assert FirstKeyValue(fs, ["amount"]) == (if "amount" in AssocList.Keys(fs) then AssocList.Get(fs, "amount").value else JNull) by {
        assert ["amount"][1..] == empty;
      }
      assert FirstKeyValue(fs, ["time", "amount"]) == (if "time" in AssocList.Keys(fs) then AssocList.Get(fs, "time").value else FirstKeyValue(fs, ["amount"])) by {
        assert ["time", "amount"][1..] == ["amount"];
      }
      assert FirstKeyValue(fs, ["text", "time", "amount"]) == (if "text" in AssocList.Keys(fs) then AssocList.Get(fs, "text").value else FirstKeyValue(fs, ["time", "amount"])) by {
        assert ["text", "time", "amount"][1..] == ["time", "amount"];
      }
      assert GetValueKeys[1..] == ["text", "time", "amount"];
    }
  }

  /** `get_value(c) == value`, with Python's `True == 1`. */
  predicate PyEq(j: Json, v: Value)
  {
    match v
    case VStr(s) => j == JStr(s)
    case VInt(n) => j == JNum(n) || (j.JBool? && (if j.b then 1 else 0) == n)
    case VDate(_) => false
  }

  // ---------------------------------------------------------------------------
  // Value normalisation and build_statement
  // ---------------------------------------------------------------------------

  /** The normalisation step of `identify_data` as written: `.startswith` is
      called on the value whatever its type, and a TIME value goes through
      `wb_dt`, which needs a `datetime`. */
  function NormaliseValueAsWritten(ptype: string, v: Value): (r: Py<Value>)
    ensures !v.VStr? ==> r == Raises(AttributeError)
    ensures IsSpecial(v) ==> r == Ok(v)
  {
    if !v.VStr? then Raises(AttributeError)
    else if StartsWith(v.s, SpecialPrefix) then Ok(v)
    else if ptype == "TIME" then Raises(AttributeError)
    else if ptype == "QUANTITY" then
      (match ParseInt(v.s)
       case Some(n) => Ok(VInt(n))
       case None => Raises(ValueError))
    else Ok(v)
  }

  /** `build_statement(pid=pid, p_datatype=datatype, value=value)` as
      written: `.startswith` is called on any value that is not None. */
  function BuildStatementAsWritten(pid: string, ptype: string, value: Option<Value>,
                                   enc: Encoder): (r: Py<Option<Snak>>)
    ensures value.Some? && !value.value.VStr? ==> r == Raises(AttributeError)
  {
    var statement := NewStatement(pid, ptype, value);
    if value.None? then Ok(statement)
    else if !value.value.VStr? then Raises(AttributeError)
    else if StartsWith(value.value.s, SpecialPrefix) then Ok(statement)
    else SetValue(statement, value.value, enc)
  }

  /** The statement object before `set_value`: None for an unrecognised data
      type. */
  function NewStatement(pid: string, ptype: string, value: Option<Value>): (s: Option<Snak>)
    ensures s.Some? <==> KindOf(ptype).Some?
    ensures s.Some? ==> s.value == Snak(KindOf(ptype).value, pid, SnakTypeOf(value), JObj([]))
  {
    match KindOf(ptype)
    case Some(k) => Some(Snak(k, pid, SnakTypeOf(value), JObj([])))
    case None => None
  }

  /** `statement.set_value(value)`; None has no such method, and the
      library's refusal escapes. */
  function SetValue(statement: Option<Snak>, v: Value, enc: Encoder): (r: Py<Option<Snak>>)
    ensures statement.None? ==> r == Raises(AttributeError)
    ensures statement.Some? ==> (r.Ok? <==> enc(statement.value.kind, v).Ok?)
    ensures statement.Some? && r.Raises? ==> r.error == enc(statement.value.kind, v).error
    ensures r.Ok? ==> r.value == Some(statement.value.(datavalue := enc(statement.value.kind, v).value))
  {
    match statement
    case None => Raises(AttributeError)
    case Some(s) =>
      var dv :- enc(s.kind, v);
      Ok(Some(s.(datavalue := dv)))
  }

  /** The normalisation step with the type check the code evidently intends:
      only a string can be a marker, a `datetime` is stamped for TIME, and a
      decimal string becomes an integer for QUANTITY. */
  function NormaliseValue(ptype: string, v: Value): (r: Py<Value>)
    ensures IsSpecial(v) ==> r == Ok(v)
    ensures !IsSpecial(v) && ptype == "TIME" ==>
              (r.Ok? <==> v.VDate?) && (v.VDate? ==> r == Ok(VStr(Wb.WbDt(v.date))))
    ensures !IsSpecial(v) && ptype != "TIME" && ptype != "QUANTITY" ==> r == Ok(v)
    ensures r.Ok? && ptype == "QUANTITY" && !IsSpecial(v) ==> r.value.VInt?
  {
    if IsSpecial(v) then Ok(v)
    else if ptype == "TIME" then
      (match v
       case VDate(d) => Ok(VStr(Wb.WbDt(d)))
       case _ => Raises(AttributeError))
    else if ptype == "QUANTITY" then
      (match v
       case VStr(s) => (match ParseInt(s) case Some(n) => Ok(VInt(n)) case None => Raises(ValueError))
       case VInt(n) => Ok(VInt(n))
       case VDate(_) => Raises(TypeError))
    else Ok(v)
  }

  /** `build_statement` with the intended type check before `.startswith`. */
  function BuildStatement(pid: string, ptype: string, value: Option<Value>,
                          enc: Encoder): (r: Py<Option<Snak>>)
    ensures KindOf(ptype).Some? ==>
              (r.Ok? <==> value.None? || IsSpecial(value.value) || enc(KindOf(ptype).value, value.value).Ok?)
    ensures KindOf(ptype).Some? && r.Raises? ==>
              value.Some? && r.error == enc(KindOf(ptype).value, value.value).error
    ensures r.Ok? ==> (r.value.Some? <==> KindOf(ptype).Some?)
    ensures KindOf(ptype).None? ==> (r.Ok? <==> value.None? || IsSpecial(value.value))
    ensures r.Ok? && r.value.Some? ==>
              && r.value.value.pid == pid
              && Some(r.value.value.kind) == KindOf(ptype)
              && r.value.value.snaktype == SnakTypeOf(value)
              && r.value.value.datavalue ==
                   (if value.Some? && !IsSpecial(value.value) then enc(r.value.value.kind, value.value).value
                    else JObj([]))
  {
    var statement := NewStatement(pid, ptype, value);
    if value.None? || IsSpecial(value.value) then Ok(statement)
    else SetValue(statement, value.value, enc)
  }

  /** A marker builds a statement of the requested snak type with no value,
      which `get_value` cannot read. */
  lemma MarkerBuildsValuelessSnak(pid: string, ptype: string, t: SnakType, enc: Encoder)
    requires KindOf(ptype).Some? && t != KnownValue
    ensures BuildStatement(pid, ptype, MarkerOf(t), enc)
            == Ok(Some(Snak(KindOf(ptype).value, pid, t, JObj([]))))
    ensures GetValue(Claim(BuildStatement(pid, ptype, MarkerOf(t), enc).value.value, [], []))
            == Raises(KeyError)
  {
    assert StartsWith(MarkerOf(t).value.s, SpecialPrefix);
  }

  lemma IntToStringNotSpecial(n: int)
    ensures !StartsWith(IntToString(n), SpecialPrefix)
  {
    var s := IntToString(n);
    if n >= 0 {
      assert IsDigit(NatToString(n)[0]);
    }
    assert s[0] != 'S';
  }

  /** Finding: with the code as written every QUANTITY value that is not a
      marker makes `build_statement` raise, because `int()` has already turned
      it into an integer, which has no `.startswith`. */
  lemma QuantityRaisesAsWritten(pid: string, n: int, enc: Encoder)
    ensures NormaliseValueAsWritten("QUANTITY", VStr(IntToString(n))) == Ok(VInt(n))
    ensures BuildStatementAsWritten(pid, "QUANTITY", Some(VInt(n)), enc) == Raises(AttributeError)
  {
    IntToStringRoundTrip(n);
    IntToStringNotSpecial(n);
  }

  /** The concrete input `"5"` for a QUANTITY property. */
  lemma QuantityFiveRaisesAsWritten(enc: Encoder)
    ensures NormaliseValueAsWritten("QUANTITY", VStr("5")) == Ok(VInt(5))
    ensures BuildStatementAsWritten("P1", "QUANTITY", Some(VInt(5)), enc) == Raises(AttributeError)
  {
    assert IntToString(5) == "5";
    QuantityRaisesAsWritten("P1", 5, enc);
  }

  /** Finding: with the code as written no TIME value other than a marker
      survives normalisation: a string has no `strftime` for `wb_dt`, and a
      `datetime` has no `.startswith`. */
  lemma TimeRaisesAsWritten(v: Value)
    requires !IsSpecial(v)
    ensures NormaliseValueAsWritten("TIME", v) == Raises(AttributeError)
  {
  }

  /** Corrected: a decimal string for a QUANTITY property becomes a known-value
      statement on which the integer is set. */
  lemma QuantityBuildsKnownValue(pid: string, n: int, enc: Encoder)
    ensures NormaliseValue("QUANTITY", VStr(IntToString(n))) == Ok(VInt(n))
    ensures BuildStatement(pid, "QUANTITY", Some(VInt(n)), enc)
            == SetValue(Some(Snak(QuantityKind, pid, KnownValue, JObj([]))), VInt(n), enc)
  {
    IntToStringRoundTrip(n);
    IntToStringNotSpecial(n);
  }

  /** Corrected: a `datetime` for a TIME property becomes a known-value
      statement on which its Wikibase date stamp is set. */
  lemma TimeBuildsKnownValue(pid: string, d: Wb.DateTime, enc: Encoder)
    ensures NormaliseValue("TIME", VDate(d)) == Ok(VStr(Wb.WbDt(d)))
    ensures BuildStatement(pid, "TIME", Some(VStr(Wb.WbDt(d))), enc)
            == SetValue(Some(Snak(TimeKind, pid, KnownValue, JObj([]))), VStr(Wb.WbDt(d)), enc)
  {
    Wb.WbDtFormat(d);
    assert Wb.WbDt(d)[0] == '+';
  }

  /** The two versions agree on every string value outside TIME and
      QUANTITY, which is all the code as written handles. */
  lemma CorrectionsAgreeOnStrings(pid: string, ptype: string, s: string, enc: Encoder)
    requires ptype != "TIME" && ptype != "QUANTITY"
    ensures NormaliseValueAsWritten(ptype, VStr(s)) == NormaliseValue(ptype, VStr(s)) == Ok(VStr(s))
    ensures BuildStatementAsWritten(pid, ptype, Some(VStr(s)), enc)
            == BuildStatement(pid, ptype, Some(VStr(s)), enc)
  {
  }

  // ---------------------------------------------------------------------------
  // identify_data
  // ---------------------------------------------------------------------------

  /** A field that may hold one value or a list of them. */
  datatype OneOrMany<T> = One(item: T) | Many(items: seq<T>)

  /** `x if isinstance(x, list) else [x]`. */
  function Wrap<T>(x: OneOrMany<T>): (xs: seq<T>)
    ensures x.One? ==> xs == [x.item]
    ensures x.Many? ==> xs == x.items
  {
    match x
    case One(v) => [v]
    case Many(vs) => vs
  }

  /** A qualifier or reference group of a claim description. `replace` is
      None when the key is absent. */
  datatype GroupInput = GroupInput(pid: string, ptype: string, values: OneOrMany<Value>,
                                   replace: Option<bool>)

  /** A claim description, property already resolved to its identifier and
      data type. */
  datatype ClaimInput = ClaimInput(pid: string, ptype: string, value: Value,
                                   qualifiers: seq<GroupInput>, references: seq<GroupInput>)

  datatype PreparedGroup = PreparedGroup(pid: string, replace: Option<bool>,
                                         statements: seq<Option<Snak>>)

  datatype PreparedClaim = PreparedClaim(pid: string, value: Value, statement: Option<Snak>,
                                         qualifiers: seq<PreparedGroup>,
                                         references: seq<PreparedGroup>)

  /** Normalise then build one value. */
  function Prepare(pid: string, ptype: string, v: Value, enc: Encoder): Py<Option<Snak>>
  {
    var normal :- NormaliseValue(ptype, v);
    BuildStatement(pid, ptype, Some(normal), enc)
  }

  /** The statements of a group, one per value, in order. */
  function BuildAll(pid: string, ptype: string, values: seq<Value>, enc: Encoder): (r: Py<seq<Option<Snak>>>)
    ensures r.Ok? <==> forall i :: 0 <= i < |values| ==> Prepare(pid, ptype, values[i], enc).Ok?
    ensures r.Ok? ==> |r.value| == |values|
    ensures r.Ok? ==> forall i :: 0 <= i < |values| ==> Prepare(pid, ptype, values[i], enc) == Ok(r.value[i])
  {
    MapPy(v => Prepare(pid, ptype, v, enc), values)
  }

  function PrepareGroup(g: GroupInput, enc: Encoder): (r: Py<PreparedGroup>)
    ensures r.Ok? <==> forall i :: 0 <= i < |Wrap(g.values)| ==> Prepare(g.pid, g.ptype, Wrap(g.values)[i], enc).Ok?
    ensures r.Ok? ==> r.value.pid == g.pid && r.value.replace == g.replace
                      && |r.value.statements| == |Wrap(g.values)|
    ensures r.Ok? ==> forall i :: 0 <= i < |Wrap(g.values)| ==>
                        Prepare(g.pid, g.ptype, Wrap(g.values)[i], enc) == Ok(r.value.statements[i])
  {
    var statements :- BuildAll(g.pid, g.ptype, Wrap(g.values), enc);
    Ok(PreparedGroup(g.pid, g.replace, statements))
  }

  /** One claim of `identify_data`: value, then qualifiers, then references. */
  function PrepareClaim(c: ClaimInput, enc: Encoder): (r: Py<PreparedClaim>)
    ensures r.Ok? <==>
              && NormaliseValue(c.ptype, c.value).Ok?
              && BuildStatement(c.pid, c.ptype, Some(NormaliseValue(c.ptype, c.value).value), enc).Ok?
              && (forall i :: 0 <= i < |c.qualifiers| ==> PrepareGroup(c.qualifiers[i], enc).Ok?)
              && (forall i :: 0 <= i < |c.references| ==> PrepareGroup(c.references[i], enc).Ok?)
    ensures r.Ok? ==> r.value.pid == c.pid && NormaliseValue(c.ptype, c.value) == Ok(r.value.value)
    ensures r.Ok? ==> BuildStatement(c.pid, c.ptype, Some(r.value.value), enc) == Ok(r.value.statement)
    ensures r.Ok? ==> |r.value.qualifiers| == |c.qualifiers| && |r.value.references| == |c.references|
    ensures r.Ok? ==> forall i :: 0 <= i < |c.qualifiers| ==> PrepareGroup(c.qualifiers[i], enc) == Ok(r.value.qualifiers[i])
    ensures r.Ok? ==> forall i :: 0 <= i < |c.references| ==> PrepareGroup(c.references[i], enc) == Ok(r.value.references[i])
  {
    var normal :- NormaliseValue(c.ptype, c.value);
    var statement :- BuildStatement(c.pid, c.ptype, Some(normal), enc);
    var qualifiers :- MapPy(g => PrepareGroup(g, enc), c.qualifiers);
    var references :- MapPy(g => PrepareGroup(g, enc), c.references);
    Ok(PreparedClaim(c.pid, normal, statement, qualifiers, references))
  }

  /** `identify_data()`: every claim prepared, in order; the first failure
      escapes. */
  function IdentifyData(claims: seq<ClaimInput>, enc: Encoder): (r: Py<seq<PreparedClaim>>)
    ensures r.Ok? <==> forall i :: 0 <= i < |claims| ==> PrepareClaim(claims[i], enc).Ok?
    ensures r.Ok? ==> |r.value| == |claims|
    ensures r.Ok? ==> forall i :: 0 <= i < |claims| ==> PrepareClaim(claims[i], enc) == Ok(r.value[i])
  {
    MapPy(c => PrepareClaim(c, enc), claims)
  }

  /** One value as written: normalise, then build, neither checking the
      value's type. */
  function PrepareAsWritten(pid: string, ptype: string, v: Value, enc: Encoder): Py<Option<Snak>>
  {
    var normal :- NormaliseValueAsWritten(ptype, v);
    BuildStatementAsWritten(pid, ptype, Some(normal), enc)
  }

  function PrepareGroupAsWritten(g: GroupInput, enc: Encoder): Py<PreparedGroup>
  {
    var statements :- MapPy(v => PrepareAsWritten(g.pid, g.ptype, v, enc), Wrap(g.values));
    Ok(PreparedGroup(g.pid, g.replace, statements))
  }

  function PrepareClaimAsWritten(c: ClaimInput, enc: Encoder): Py<PreparedClaim>
  {
    var normal :- NormaliseValueAsWritten(c.ptype, c.value);
    var statement :- BuildStatementAsWritten(c.pid, c.ptype, Some(normal), enc);
    var qualifiers :- MapPy(g => PrepareGroupAsWritten(g, enc), c.qualifiers);
    var references :- MapPy(g => PrepareGroupAsWritten(g, enc), c.references);
    Ok(PreparedClaim(c.pid, normal, statement, qualifiers, references))
  }

  /** `identify_data()` as written: one claim for a TIME or QUANTITY property
      whose value is not a marker makes the whole call raise. */
  function IdentifyDataAsWritten(claims: seq<ClaimInput>, enc: Encoder): (r: Py<seq<PreparedClaim>>)
    ensures (exists i :: 0 <= i < |claims| && (claims[i].ptype == "TIME" || claims[i].ptype == "QUANTITY")
                                           && !IsSpecial(claims[i].value)) ==> r.Raises?
  {
    forall i | 0 <= i < |claims| && (claims[i].ptype == "TIME" || claims[i].ptype == "QUANTITY")
                                 && !IsSpecial(claims[i].value)
      ensures !PrepareClaimAsWritten(claims[i], enc).Ok?
    {
      var c := claims[i];
      if c.value.VStr? && c.ptype == "QUANTITY" && ParseInt(c.value.s).Some? {
        assert NormaliseValueAsWritten(c.ptype, c.value) == Ok(VInt(ParseInt(c.value.s).value));
      }
    }
    MapPy(c => PrepareClaimAsWritten(c, enc), claims)
  }

  /** A group the code as written handles: its data type is neither TIME nor
      QUANTITY and all its values are strings. */
  predicate PlainGroup(g: GroupInput)
  {
    && g.ptype != "TIME" && g.ptype != "QUANTITY"
    && forall i :: 0 <= i < |Wrap(g.values)| ==> Wrap(g.values)[i].VStr?
  }

  /** A claim description the code as written handles. */
  predicate PlainClaim(c: ClaimInput)
  {
    && c.ptype != "TIME" && c.ptype != "QUANTITY" && c.value.VStr?
    && (forall i :: 0 <= i < |c.qualifiers| ==> PlainGroup(c.qualifiers[i]))
    && (forall i :: 0 <= i < |c.references| ==> PlainGroup(c.references[i]))
  }

  lemma PrepareGroupAgreesWhenPlain(g: GroupInput, enc: Encoder)
    requires PlainGroup(g)
    ensures PrepareGroupAsWritten(g, enc) == PrepareGroup(g, enc)
  {
    var vs := Wrap(g.values);
    forall i | 0 <= i < |vs|
      ensures PrepareAsWritten(g.pid, g.ptype, vs[i], enc) == Prepare(g.pid, g.ptype, vs[i], enc)
    {
      CorrectionsAgreeOnStrings(g.pid, g.ptype, vs[i].s, enc);
    }
    MapPyAgree(v => PrepareAsWritten(g.pid, g.ptype, v, enc), v => Prepare(g.pid, g.ptype, v, enc), vs);
  }

  lemma PrepareClaimAgreesWhenPlain(c: ClaimInput, enc: Encoder)
    requires PlainClaim(c)
    ensures PrepareClaimAsWritten(c, enc) == PrepareClaim(c, enc)
  {
    CorrectionsAgreeOnStrings(c.pid, c.ptype, c.value.s, enc);
    forall i | 0 <= i < |c.qualifiers|
      ensures PrepareGroupAsWritten(c.qualifiers[i], enc) == PrepareGroup(c.qualifiers[i], enc)
    {
      PrepareGroupAgreesWhenPlain(c.qualifiers[i], enc);
    }
    forall i | 0 <= i < |c.references|
      ensures PrepareGroupAsWritten(c.references[i], enc) == PrepareGroup(c.references[i], enc)
    {
      PrepareGroupAgreesWhenPlain(c.references[i], enc);
    }
    MapPyAgree(g => PrepareGroupAsWritten(g, enc), g => PrepareGroup(g, enc), c.qualifiers);
    MapPyAgree(g => PrepareGroupAsWritten(g, enc), g => PrepareGroup(g, enc), c.references);
  }

  /** On claim descriptions the code as written handles, `identify_data` as
      written and as intended prepare the same claims. */
  lemma IdentifyDataAgreesOnPlainClaims(claims: seq<ClaimInput>, enc: Encoder)
    requires forall i :: 0 <= i < |claims| ==> PlainClaim(claims[i])
    ensures IdentifyDataAsWritten(claims, enc) == IdentifyData(claims, enc)
  {
    forall i | 0 <= i < |claims|
      ensures PrepareClaimAsWritten(claims[i], enc) == PrepareClaim(claims[i], enc)
    {
      PrepareClaimAgreesWhenPlain(claims[i], enc);
    }
    MapPyAgree(c => PrepareClaimAsWritten(c, enc), c => PrepareClaim(c, enc), claims);
  }

  /** A group of string values for a recognised string-like data type is
      prepared exactly when the library accepts every value, and then yields
      one known-value statement per value, holding that value. */
  lemma PlainStringGroupPrepared(g: GroupInput, enc: Encoder)
    requires KindOf(g.ptype).Some? && g.ptype != "TIME" && g.ptype != "QUANTITY"
    requires forall i :: 0 <= i < |Wrap(g.values)| ==> Wrap(g.values)[i].VStr? && !IsSpecial(Wrap(g.values)[i])
    ensures PrepareGroup(g, enc).Ok? <==>
              forall i :: 0 <= i < |Wrap(g.values)| ==> enc(KindOf(g.ptype).value, Wrap(g.values)[i]).Ok?
    ensures PrepareGroup(g, enc).Ok? ==> forall i :: 0 <= i < |Wrap(g.values)| ==>
              PrepareGroup(g, enc).value.statements[i]
              == Some(Snak(KindOf(g.ptype).value, g.pid, KnownValue,
                           enc(KindOf(g.ptype).value, Wrap(g.values)[i]).value))
  {
    var vs := Wrap(g.values);
    forall i | 0 <= i < |vs|
      ensures Prepare(g.pid, g.ptype, vs[i], enc).Ok? <==> enc(KindOf(g.ptype).value, vs[i]).Ok?
      ensures SnakTypeOf(Some(vs[i])) == KnownValue
    {
      assert SnakTypeOf(Some(vs[i])) == KnownValue;
    }
  }

  // ---------------------------------------------------------------------------
  // process_claim
  // ---------------------------------------------------------------------------

  /** The part of a client-library item that `Item.__init__` edits: the
      English label, aliases and description, and the claims by property. */
  datatype ItemState = ItemState(enLabel: Option<string>, aliases: seq<string>,
                                 description: Option<string>,
                                 claims: map<string, seq<Claim>>)

  /** `item.claims.get(pid)`, an empty list for a property without claims. */
  function ClaimsFor(item: ItemState, pid: string): seq<Claim>
  {
    if pid in item.claims then item.claims[pid] else []
  }

  /** The `next(...)` search: the position of the first claim whose value
      equals `v`. Claims are read in order until one matches, so a claim
      before the match whose value cannot be read makes the search raise. */
  function FirstMatch(cs: seq<Claim>, v: Value): (r: Py<Option<nat>>)
    ensures r.Ok? && r.value.Some? ==>
              && r.value.value < |cs|
              && GetValue(cs[r.value.value]).Ok? && PyEq(GetValue(cs[r.value.value]).value, v)
              && forall j :: 0 <= j < r.value.value ==> GetValue(cs[j]).Ok? && !PyEq(GetValue(cs[j]).value, v)
    ensures r == Ok(None) <==> forall j :: 0 <= j < |cs| ==> GetValue(cs[j]).Ok? && !PyEq(GetValue(cs[j]).value, v)
  {
    if |cs| == 0 then Ok(None)
    else
      var value :- GetValue(cs[0]);
      if PyEq(value, v) then Ok(Some(0))
      else
        var rest :- FirstMatch(cs[1..], v);
        assert forall j :: 1 <= j < |cs| ==> cs[1..][j - 1] == cs[j];
        Ok(if rest.Some? then Some(rest.value + 1) else None)
  }

  /** `q_data["replace"]`. */
  function ReplaceFlag(g: PreparedGroup): (r: Py<bool>)
    ensures r.Raises? <==> g.replace.None?
  {
    match g.replace
    case Some(b) => Ok(b)
    case None => Raises(KeyError)
  }

  /** `container.add(statement)` for each statement of a group; the library
      refuses None, taken here as TypeError. */
  function AddAll(snaks: seq<Snak>, statements: seq<Option<Snak>>): (r: Py<seq<Snak>>)
    ensures r.Ok? <==> forall i :: 0 <= i < |statements| ==> statements[i].Some?
    ensures r.Ok? ==> |r.value| == |snaks| + |statements| && r.value[..|snaks|] == snaks
    ensures r.Ok? ==> forall i :: 0 <= i < |statements| ==> r.value[|snaks| + i] == statements[i].value
  {
    if |statements| == 0 then Ok(snaks)
    else
      var n := |statements| - 1;
      var init :- AddAll(snaks, statements[..n]);
      match statements[n]
      case None => Raises(TypeError)
      case Some(s) =>
        assert forall i :: 0 <= i < n ==> statements[..n][i] == statements[i];
        Ok(init + [s])
  }

  /** Some snak of `snaks` is for property `pid`. */
  predicate HasProperty(snaks: seq<Snak>, pid: string)
  {
    exists i :: 0 <= i < |snaks| && snaks[i].pid == pid
  }

  /** The snaks of `snaks` for other properties than `pid`, in order. */
  function Without(snaks: seq<Snak>, pid: string): (r: seq<Snak>)
    ensures |r| <= |snaks|
    ensures forall s :: s in r <==> s in snaks && s.pid != pid
  {
    if |snaks| == 0 then []
    else
      var init := Without(snaks[..|snaks| - 1], pid);
      var last := snaks[|snaks| - 1];
      assert snaks == snaks[..|snaks| - 1] + [last];
      if last.pid == pid then init else init + [last]
  }

  /** The qualifier loop for one group as written: the removal goes through
      the misspelt attribute `qualfiers`, which raises AttributeError, and the
      handler clears every qualifier instead. */
  function QualifierGroupAsWritten(c: Claim, g: PreparedGroup): (r: Py<Claim>)
    ensures r.Ok? <==> g.replace.Some? && forall i :: 0 <= i < |g.statements| ==> g.statements[i].Some?
    ensures r.Ok? ==> r.value.mainsnak == c.mainsnak && r.value.references == c.references
    ensures r.Ok? && g.replace == Some(true) && HasProperty(c.qualifiers, g.pid) ==>
              r.value.qualifiers == AddAll([], g.statements).value
    ensures r.Ok? && !(g.replace == Some(true) && HasProperty(c.qualifiers, g.pid)) ==>
              r.value.qualifiers == AddAll(c.qualifiers, g.statements).value
  {
    var replace :- ReplaceFlag(g);
    var kept := if replace && HasProperty(c.qualifiers, g.pid) then [] else c.qualifiers;
    var qualifiers :- AddAll(kept, g.statements);
    Ok(c.(qualifiers := qualifiers))
  }

  /** The reference loop for one group as written: the removal also goes
      through `qualfiers`, so a matching reference clears the qualifiers and
      the references stay. */
  function ReferenceGroupAsWritten(c: Claim, g: PreparedGroup): (r: Py<Claim>)
    ensures r.Ok? <==> g.replace.Some? && forall i :: 0 <= i < |g.statements| ==> g.statements[i].Some?
    ensures r.Ok? ==> r.value.mainsnak == c.mainsnak
    ensures r.Ok? ==> |r.value.references| == |c.references| + |g.statements|
                      && r.value.references[..|c.references|] == c.references
    ensures r.Ok? && g.replace == Some(true) && HasProperty(c.references, g.pid) ==> r.value.qualifiers == []
  {
    var replace :- ReplaceFlag(g);
    var qualifiers := if replace && HasProperty(c.references, g.pid) then [] else c.qualifiers;
    var references :- AddAll(c.references, g.statements);
    Ok(c.(qualifiers := qualifiers, references := references))
  }

  /** The qualifier loop for one group as intended: with `replace`, the
      qualifiers for the group's property go, then the new ones are added. */
  function QualifierGroup(c: Claim, g: PreparedGroup): (r: Py<Claim>)
    ensures r.Ok? ==> r.value.mainsnak == c.mainsnak && r.value.references == c.references
    ensures r.Ok? <==> g.replace.Some? && forall i :: 0 <= i < |g.statements| ==> g.statements[i].Some?
  {
    var replace :- ReplaceFlag(g);
    var kept := if replace then Without(c.qualifiers, g.pid) else c.qualifiers;
    var qualifiers :- AddAll(kept, g.statements);
    Ok(c.(qualifiers := qualifiers))
  }

  /** The reference loop for one group as intended. */
  function ReferenceGroup(c: Claim, g: PreparedGroup): (r: Py<Claim>)
    ensures r.Ok? ==> r.value.mainsnak == c.mainsnak && r.value.qualifiers == c.qualifiers
    ensures r.Ok? <==> g.replace.Some? && forall i :: 0 <= i < |g.statements| ==> g.statements[i].Some?
  {
    var replace :- ReplaceFlag(g);
    var kept := if replace then Without(c.references, g.pid) else c.references;
    var references :- AddAll(kept, g.statements);
    Ok(c.(references := references))
  }

  /** The snaks after `AddAll` are the old ones and the added ones. */
  lemma AddAllMembers(snaks: seq<Snak>, statements: seq<Option<Snak>>)
    requires AddAll(snaks, statements).Ok?
    ensures forall s :: s in AddAll(snaks, statements).value <==> s in snaks || Some(s) in statements
  {
    var r := AddAll(snaks, statements).value;
    var added := r[|snaks|..];
    assert r == snaks + added;
    forall s ensures s in added <==> Some(s) in statements {
      if s in added {
        var i :| 0 <= i < |added| && added[i] == s;
        assert statements[i] == Some(s);
      }
      if Some(s) in statements {
        var i :| 0 <= i < |statements| && statements[i] == Some(s);
        assert added[i] == s;
      }
    }
  }

  /** Intended replacement: a replacing group leaves exactly the snaks of other
      properties and its own new ones; a non-replacing group only adds. */
  lemma QualifierGroupReplacesOnlyItsProperty(c: Claim, g: PreparedGroup)
    requires QualifierGroup(c, g).Ok?
    ensures var qs := QualifierGroup(c, g).value.qualifiers;
            forall s :: s in qs <==>
              (s in c.qualifiers && (g.replace == Some(true) ==> s.pid != g.pid))
              || Some(s) in g.statements
  {
    var kept := if g.replace.value then Without(c.qualifiers, g.pid) else c.qualifiers;
    AddAllMembers(kept, g.statements);
  }

  /** The same for references. */
  lemma ReferenceGroupReplacesOnlyItsProperty(c: Claim, g: PreparedGroup)
    requires ReferenceGroup(c, g).Ok?
    ensures var rs := ReferenceGroup(c, g).value.references;
            forall s :: s in rs <==>
              (s in c.references && (g.replace == Some(true) ==> s.pid != g.pid))
              || Some(s) in g.statements
  {
    var kept := if g.replace.value then Without(c.references, g.pid) else c.references;
    AddAllMembers(kept, g.statements);
  }

  /** Unless a group replaces, the code as written and the intended code
      agree. */
  lemma GroupsAgreeWithoutReplace(c: Claim, g: PreparedGroup)
    requires g.replace != Some(true)
    ensures QualifierGroupAsWritten(c, g) == QualifierGroup(c, g)
    ensures ReferenceGroupAsWritten(c, g) == ReferenceGroup(c, g)
  {
  }

  /** Finding: a replacing qualifier group for P1 on a claim with qualifiers
      for P1 and P2 loses the P2 qualifier as written. */
  lemma QualifierReplaceClearsOtherProperties(main: Snak, a: Snak, b: Snak)
    requires a.pid == "P1" && b.pid == "P2"
    ensures var c := Claim(main, [a, b], []);
            var g := PreparedGroup("P1", Some(true), []);
            && QualifierGroupAsWritten(c, g) == Ok(Claim(main, [], []))
            && QualifierGroup(c, g) == Ok(Claim(main, [b], []))
  {
    var c := Claim(main, [a, b], []);
    assert HasProperty(c.qualifiers, "P1") by { assert c.qualifiers[0].pid == "P1"; }
    var none: seq<Snak> := [];
    assert [a][..0] == none;
    assert Without([a], "P1") == none;
    assert [a, b][..1] == [a];
    assert Without([a, b], "P1") == [b];
  }

  /** Finding: a replacing reference group for P3 keeps the old P3 reference
      and clears the claim's qualifiers as written. */
  lemma ReferenceReplaceKeepsReferences(main: Snak, q: Snak, r: Snak)
    requires r.pid == "P3"
    ensures var c := Claim(main, [q], [r]);
            var g := PreparedGroup("P3", Some(true), []);
            && ReferenceGroupAsWritten(c, g) == Ok(Claim(main, [], [r]))
            && ReferenceGroup(c, g) == Ok(Claim(main, [q], []))
  {
    var c := Claim(main, [q], [r]);
    assert HasProperty(c.references, "P3") by { assert c.references[0].pid == "P3"; }
    assert [r][..0] == [];
  }

  /** All groups of one kind, in order. */
  function ApplyQualifierGroups(c: Claim, gs: seq<PreparedGroup>): (r: Py<Claim>)
    ensures r.Ok? ==> r.value.mainsnak == c.mainsnak && r.value.references == c.references
  {
    if |gs| == 0 then Ok(c)
    else
      var init :- ApplyQualifierGroups(c, gs[..|gs| - 1]);
      QualifierGroup(init, gs[|gs| - 1])
  }

  function ApplyReferenceGroups(c: Claim, gs: seq<PreparedGroup>): (r: Py<Claim>)
    ensures r.Ok? ==> r.value.mainsnak == c.mainsnak && r.value.qualifiers == c.qualifiers
  {
    if |gs| == 0 then Ok(c)
    else
      var init :- ApplyReferenceGroups(c, gs[..|gs| - 1]);
      ReferenceGroup(init, gs[|gs| - 1])
  }

  /** A group that, with `replace` false and no statements, never touches
      the claim. */
  predicate InertGroup(g: PreparedGroup)
  {
    g.replace == Some(false) && |g.statements| == 0
  }

  /** The error the group loops raise when the claim is None (an unbuilt
      statement and no match): reading `replace`, then touching
      `None.qualifiers` or `None.references`. The first group that is not
      inert decides: KeyError when it has no `replace`, AttributeError
      otherwise; only inert groups raise nothing. */
  function NoneClaimError(gs: seq<PreparedGroup>): (r: Option<PyError>)
    ensures r.None? <==> forall i :: 0 <= i < |gs| ==> InertGroup(gs[i])
    ensures r.Some? ==> exists i :: && 0 <= i < |gs| && !InertGroup(gs[i])
                                    && (forall j :: 0 <= j < i ==> InertGroup(gs[j]))
                                    && r.value == (if gs[i].replace.None? then KeyError else AttributeError)
  {
    if |gs| == 0 then None
    else if gs[0].replace.None? then Some(KeyError)
    else if gs[0].replace.value || |gs[0].statements| > 0 then Some(AttributeError)
    else NoneClaimError(gs[1..])
  }

  /** `process_claim(claim_data)`: update the first claim of the property
      whose value equals the normalised value, or add the new statement as a
      claim. */
  function ProcessClaim(item: ItemState, pc: PreparedClaim): (r: Py<ItemState>)
    ensures r.Ok? ==> SameHeader(item, r.value)
    ensures r.Ok? ==> pc.pid in r.value.claims
    ensures r.Ok? ==> forall p :: p != pc.pid ==> SameClaimsFor(item, r.value, p)
    ensures r.Ok? ==> FirstMatch(ClaimsFor(item, pc.pid), pc.value).Ok?
    ensures r.Ok? && FirstMatch(ClaimsFor(item, pc.pid), pc.value).value.None? ==>
              && |r.value.claims[pc.pid]| == |ClaimsFor(item, pc.pid)| + 1
              && r.value.claims[pc.pid][..|ClaimsFor(item, pc.pid)|] == ClaimsFor(item, pc.pid)
              && pc.statement.Some?
              && r.value.claims[pc.pid][|ClaimsFor(item, pc.pid)|].mainsnak == pc.statement.value
    ensures r.Ok? && FirstMatch(ClaimsFor(item, pc.pid), pc.value).value.Some? ==>
              var i := FirstMatch(ClaimsFor(item, pc.pid), pc.value).value.value;
              && |r.value.claims[pc.pid]| == |ClaimsFor(item, pc.pid)|
              && r.value.claims[pc.pid][i].mainsnak == ClaimsFor(item, pc.pid)[i].mainsnak
              && forall j :: 0 <= j < |ClaimsFor(item, pc.pid)| && j != i ==>
                   r.value.claims[pc.pid][j] == ClaimsFor(item, pc.pid)[j]
  {
    var existing := ClaimsFor(item, pc.pid);
    var found :- FirstMatch(existing, pc.value);
    match found
    case Some(i) =>
      var c1 :- ApplyQualifierGroups(existing[i], pc.qualifiers);
      var c2 :- ApplyReferenceGroups(c1, pc.references);
      Ok(item.(claims := item.claims[pc.pid := existing[i := c2]]))
    case None =>
      match pc.statement
      case None =>
        var err := match NoneClaimError(pc.qualifiers)
                   case Some(e) => e
                   case None => NoneClaimError(pc.references).GetOr(TypeError);
        Raises(err)
      case Some(s) =>
        var c1 :- ApplyQualifierGroups(Claim(s, [], []), pc.qualifiers);
        var c2 :- ApplyReferenceGroups(c1, pc.references);
        Ok(item.(claims := item.claims[pc.pid := existing + [c2]]))
  }

  function ApplyQualifierGroupsAsWritten(c: Claim, gs: seq<PreparedGroup>): Py<Claim>
  {
    if |gs| == 0 then Ok(c)
    else
      var init :- ApplyQualifierGroupsAsWritten(c, gs[..|gs| - 1]);
      QualifierGroupAsWritten(init, gs[|gs| - 1])
  }

  function ApplyReferenceGroupsAsWritten(c: Claim, gs: seq<PreparedGroup>): Py<Claim>
  {
    if |gs| == 0 then Ok(c)
    else
      var init :- ApplyReferenceGroupsAsWritten(c, gs[..|gs| - 1]);
      ReferenceGroupAsWritten(init, gs[|gs| - 1])
  }

  /** With no matching claim and no statement built, the claim is None, and
      `process_claim` raises: the first qualifier or reference group that is
      not inert fails on `replace` or on `None`, and when every group is
      inert `claims.add(None)` fails. */
  lemma UnbuiltUnmatchedClaimRaises(item: ItemState, pc: PreparedClaim)
    requires FirstMatch(ClaimsFor(item, pc.pid), pc.value) == Ok(None) && pc.statement.None?
    ensures ProcessClaim(item, pc).Raises?
    ensures (exists i :: 0 <= i < |pc.qualifiers| && pc.qualifiers[i].replace.None?
                         && forall j :: 0 <= j < i ==> InertGroup(pc.qualifiers[j]))
            ==> ProcessClaim(item, pc) == Raises(KeyError)
    ensures (&& (forall i :: 0 <= i < |pc.qualifiers| ==> InertGroup(pc.qualifiers[i]))
             && (forall i :: 0 <= i < |pc.references| ==> InertGroup(pc.references[i])))
            ==> ProcessClaim(item, pc) == Raises(TypeError)
  {
  }

  /** `process_claim` as written: the same search and update, with the group
      loops as written. */
  function ProcessClaimAsWritten(item: ItemState, pc: PreparedClaim): Py<ItemState>
  {
    var existing := ClaimsFor(item, pc.pid);
    var found :- FirstMatch(existing, pc.value);
    match found
    case Some(i) =>
      var c1 :- ApplyQualifierGroupsAsWritten(existing[i], pc.qualifiers);
      var c2 :- ApplyReferenceGroupsAsWritten(c1, pc.references);
      Ok(item.(claims := item.claims[pc.pid := existing[i := c2]]))
    case None =>
      match pc.statement
      case None =>
        var err := match NoneClaimError(pc.qualifiers)
                   case Some(e) => e
                   case None => NoneClaimError(pc.references).GetOr(TypeError);
        Raises(err)
      case Some(s) =>
        var c1 :- ApplyQualifierGroupsAsWritten(Claim(s, [], []), pc.qualifiers);
        var c2 :- ApplyReferenceGroupsAsWritten(c1, pc.references);
        Ok(item.(claims := item.claims[pc.pid := existing + [c2]]))
  }

  /** No group of `gs` asks to replace. */
  predicate AddsOnly(gs: seq<PreparedGroup>)
  {
    forall i :: 0 <= i < |gs| ==> gs[i].replace != Some(true)
  }

  lemma {:induction false} GroupLoopsAgreeWithoutReplace(c: Claim, gs: seq<PreparedGroup>)
    requires AddsOnly(gs)
    ensures ApplyQualifierGroupsAsWritten(c, gs) == ApplyQualifierGroups(c, gs)
    ensures ApplyReferenceGroupsAsWritten(c, gs) == ApplyReferenceGroups(c, gs)
  {
    if |gs| > 0 {
      var n := |gs| - 1;
      assert forall i :: 0 <= i < n ==> gs[..n][i] == gs[i];
      GroupLoopsAgreeWithoutReplace(c, gs[..n]);
      var q := ApplyQualifierGroups(c, gs[..n]);
      if q.Ok? {
        GroupsAgreeWithoutReplace(q.value, gs[n]);
      }
      var r := ApplyReferenceGroups(c, gs[..n]);
      if r.Ok? {
        GroupsAgreeWithoutReplace(r.value, gs[n]);
      }
    }
  }

  /** Unless one of its groups replaces, a claim is processed the same as
      written and as intended. */
  lemma ProcessClaimAgreesWithoutReplace(item: ItemState, pc: PreparedClaim)
    requires AddsOnly(pc.qualifiers) && AddsOnly(pc.references)
    ensures ProcessClaimAsWritten(item, pc) == ProcessClaim(item, pc)
  {
    var existing := ClaimsFor(item, pc.pid);
    var found := FirstMatch(existing, pc.value);
    if found.Ok? {
      var base := if found.value.Some? then existing[found.value.value]
                  else if pc.statement.Some? then Claim(pc.statement.value, [], []) else Claim(Snak(ItemKind, "", KnownValue, JObj([])), [], []);
      GroupLoopsAgreeWithoutReplace(base, pc.qualifiers);
      var c1 := ApplyQualifierGroups(base, pc.qualifiers);
      if c1.Ok? {
        GroupLoopsAgreeWithoutReplace(c1.value, pc.references);
      }
    }
  }

  /** Finding, for the whole of `process_claim`: replacing the P1 qualifiers
      of the matching claim drops its P2 qualifier as written and keeps it as
      intended. */
  lemma ProcessClaimAsWrittenDropsOtherQualifiers(item: ItemState, pid: string, s: string,
                                                   main: Snak, a: Snak, b: Snak)
    requires a.pid == "P1" && b.pid == "P2"
    requires main.datavalue == JObj([("value", JStr(s))])
    requires pid in item.claims && item.claims[pid] == [Claim(main, [a, b], [])]
    ensures var pc := PreparedClaim(pid, VStr(s), None, [PreparedGroup("P1", Some(true), [])], []);
            && ProcessClaimAsWritten(item, pc) == Ok(item.(claims := item.claims[pid := [Claim(main, [], [])]]))
            && ProcessClaim(item, pc) == Ok(item.(claims := item.claims[pid := [Claim(main, [b], [])]]))
  {
    var gs := [PreparedGroup("P1", Some(true), [])];
    var c := Claim(main, [a, b], []);
    assert GetValue(c) == Ok(JStr(s));
    assert FirstMatch([c], VStr(s)) == Ok(Some(0));
    QualifierReplaceClearsOtherProperties(main, a, b);
    assert gs[..0] == [];
    assert ClaimsFor(item, pid) == [c];
    assert ApplyQualifierGroupsAsWritten(c, gs) == Ok(Claim(main, [], []));
    assert ApplyQualifierGroups(c, gs) == Ok(Claim(main, [b], []));
    assert [c][0 := Claim(main, [], [])] == [Claim(main, [], [])];
    assert [c][0 := Claim(main, [b], [])] == [Claim(main, [b], [])];
  }

  /** `a` and `b` hold the same claims for property `p`. */
  predicate SameClaimsFor(a: ItemState, b: ItemState, p: string)
  {
    && (p in a.claims <==> p in b.claims)
    && (p in a.claims ==> a.claims[p] == b.claims[p])
  }

  /** Some prepared claim is for property `p`. */
  predicate Mentions(pcs: seq<PreparedClaim>, p: string)
  {
    exists i :: 0 <= i < |pcs| && pcs[i].pid == p
  }

  /** The `claims` loop of `Item.__init__`. */
  function ProcessClaims(item: ItemState, pcs: seq<PreparedClaim>): (r: Py<ItemState>)
    ensures r.Ok? ==> ClaimsLoopResult(item, pcs, r.value)
  {
    if |pcs| == 0 then Ok(item)
    else
      var n := |pcs| - 1;
      var st :- ProcessClaims(item, pcs[..n]);
      var r := ProcessClaim(st, pcs[n]);
      ProcessClaimsStep(item, pcs, st, r);
      r
  }

  function ProcessClaimsAsWritten(item: ItemState, pcs: seq<PreparedClaim>): Py<ItemState>
  {
    if |pcs| == 0 then Ok(item)
    else
      var st :- ProcessClaimsAsWritten(item, pcs[..|pcs| - 1]);
      ProcessClaimAsWritten(st, pcs[|pcs| - 1])
  }

  lemma {:induction false} ProcessClaimsAgreeWithoutReplace(item: ItemState, pcs: seq<PreparedClaim>)
    requires forall i :: 0 <= i < |pcs| ==> AddsOnly(pcs[i].qualifiers) && AddsOnly(pcs[i].references)
    ensures ProcessClaimsAsWritten(item, pcs) == ProcessClaims(item, pcs)
  {
    if |pcs| > 0 {
      var n := |pcs| - 1;
      assert forall i :: 0 <= i < n ==> pcs[..n][i] == pcs[i];
      ProcessClaimsAgreeWithoutReplace(item, pcs[..n]);
      var st := ProcessClaims(item, pcs[..n]);
      if st.Ok? {
        ProcessClaimAgreesWithoutReplace(st.value, pcs[n]);
      }
    }
  }

  /** The header fields of `a` and `b` agree. */
  predicate SameHeader(a: ItemState, b: ItemState)
  {
    a.enLabel == b.enLabel && a.aliases == b.aliases && a.description == b.description
  }

  /** What processing the claims `pcs` on `item` guarantees of the result
      `st`: the header is untouched, every property of `pcs` has claims, and
      every other property keeps exactly its claims. */
  ghost predicate ClaimsLoopResult(item: ItemState, pcs: seq<PreparedClaim>, st: ItemState)
  {
    && SameHeader(item, st)
    && (forall p :: !Mentions(pcs, p) ==> SameClaimsFor(item, st, p))
    && (forall i :: 0 <= i < |pcs| ==> pcs[i].pid in st.claims)
  }

  lemma ProcessClaimsStep(item: ItemState, pcs: seq<PreparedClaim>, st: ItemState, r: Py<ItemState>)
    requires |pcs| > 0
    requires ClaimsLoopResult(item, pcs[..|pcs| - 1], st)
    requires r == ProcessClaim(st, pcs[|pcs| - 1])
    ensures r.Ok? ==> ClaimsLoopResult(item, pcs, r.value)
  {
    var n := |pcs| - 1;
    if r.Ok? {
      forall p | !Mentions(pcs, p) ensures SameClaimsFor(item, r.value, p) {
        assert pcs[n].pid != p;
        assert SameClaimsFor(item, st, p);
        assert SameClaimsFor(st, r.value, p);
      }
      forall i | 0 <= i < |pcs| ensures pcs[i].pid in r.value.claims {
        if i < n && pcs[i].pid != pcs[n].pid {
          assert pcs[..n][i] == pcs[i];
          assert SameClaimsFor(st, r.value, pcs[i].pid);
        }
      }
    }
  }

  // ---------------------------------------------------------------------------
  // Item.__init__
  // ---------------------------------------------------------------------------

  const DescriptionLimit: nat := 250

  /** `description[:250]`. */
  function TruncateDescription(d: string): (r: string)
    ensures |r| <= DescriptionLimit
    ensures |r| <= |d| && r == d[..|r|]
    ensures |d| <= DescriptionLimit ==> r == d
    ensures |d| > DescriptionLimit ==> |r| == DescriptionLimit
  {
    if |d| <= DescriptionLimit then d else d[..DescriptionLimit]
  }

  /** The item description as given: absent keys are None. */
  datatype ItemData = ItemData(enLabel: Option<string>, aliases: Option<OneOrMany<string>>,
                               description: Option<string>, claims: seq<ClaimInput>)

  predicate AliasesGiven(a: Option<OneOrMany<string>>)
  {
    a.Some? && match a.value
               case One(s) => |s| > 0
               case Many(xs) => |xs| > 0
  }

  /** The label, alias and description part of `Item.__init__`. */
  function ApplyHeader(item: ItemState, data: ItemData): (r: ItemState)
    ensures r.claims == item.claims
    ensures r.enLabel == if data.enLabel.Some? && |data.enLabel.value| > 0 then data.enLabel else item.enLabel
    ensures r.aliases == if AliasesGiven(data.aliases) then Wrap(data.aliases.value) else item.aliases
    ensures data.description.Some? && |data.description.value| > 0 ==>
              && r.description.Some?
              && |r.description.value| == (if |data.description.value| <= DescriptionLimit
                                           then |data.description.value| else DescriptionLimit)
              && r.description.value == data.description.value[..|r.description.value|]
    ensures !(data.description.Some? && |data.description.value| > 0) ==> r.description == item.description
  {
    var withLabel := if data.enLabel.Some? && |data.enLabel.value| > 0 then item.(enLabel := data.enLabel) else item;
    var withAliases := if AliasesGiven(data.aliases) then withLabel.(aliases := Wrap(data.aliases.value))
                       else withLabel;
    if data.description.Some? && |data.description.value| > 0 then
      withAliases.(description := Some(TruncateDescription(data.description.value)))
    else withAliases
  }

  /** A single alias string and a one-element alias list set the same aliases. */
  lemma SingleAliasIsWrapped(item: ItemState, data: ItemData, alias: string)
    requires |alias| > 0 && data.aliases == Some(One(alias))
    ensures ApplyHeader(item, data) == ApplyHeader(item, data.(aliases := Some(Many([alias]))))
  {
  }

  /** `Item(data, wb, commit=False)` on the fetched or new item `base`:
      `identify_data` first, then the header fields, then every claim. */
  function InitItem(data: ItemData, base: ItemState, enc: Encoder): (r: Py<ItemState>)
    ensures r.Ok? ==> IdentifyData(data.claims, enc).Ok?
    ensures r.Ok? ==> r.value.enLabel == ApplyHeader(base, data).enLabel
                      && r.value.aliases == ApplyHeader(base, data).aliases
                      && r.value.description == ApplyHeader(base, data).description
    ensures r.Ok? ==> forall i :: 0 <= i < |data.claims| ==> data.claims[i].pid in r.value.claims
  {
    var prepared :- IdentifyData(data.claims, enc);
    var withHeader := ApplyHeader(base, data);
    var result :- ProcessClaims(withHeader, prepared);
    assert forall i :: 0 <= i < |data.claims| ==> prepared[i].pid == data.claims[i].pid;
    Ok(result)
  }

  /** `Item(data, wb, commit=False)` as written. */
  function InitItemAsWritten(data: ItemData, base: ItemState, enc: Encoder): Py<ItemState>
  {
    var prepared :- IdentifyDataAsWritten(data.claims, enc);
    ProcessClaimsAsWritten(ApplyHeader(base, data), prepared)
  }

  /** No group of the claim description asks to replace. */
  predicate AddsOnlyInput(c: ClaimInput)
  {
    && (forall i :: 0 <= i < |c.qualifiers| ==> c.qualifiers[i].replace != Some(true))
    && (forall i :: 0 <= i < |c.references| ==> c.references[i].replace != Some(true))
  }

  /** For an item description whose claims the code as written handles and
      whose groups never replace, `Item.__init__` as written and as intended
      build the same item. */
  lemma InitItemAgreesOnPlainData(data: ItemData, base: ItemState, enc: Encoder)
    requires forall i :: 0 <= i < |data.claims| ==> PlainClaim(data.claims[i]) && AddsOnlyInput(data.claims[i])
    ensures InitItemAsWritten(data, base, enc) == InitItem(data, base, enc)
  {
    IdentifyDataAgreesOnPlainClaims(data.claims, enc);
    var prepared := IdentifyData(data.claims, enc);
    if prepared.Ok? {
      var pcs := prepared.value;
      forall i | 0 <= i < |pcs| ensures AddsOnly(pcs[i].qualifiers) && AddsOnly(pcs[i].references) {
        var c := data.claims[i];
        assert PrepareClaim(c, enc) == Ok(pcs[i]);
        forall j | 0 <= j < |pcs[i].qualifiers| ensures pcs[i].qualifiers[j].replace != Some(true) {
          assert PrepareGroup(c.qualifiers[j], enc) == Ok(pcs[i].qualifiers[j]);
        }
        forall j | 0 <= j < |pcs[i].references| ensures pcs[i].references[j].replace != Some(true) {
          assert PrepareGroup(c.references[j], enc) == Ok(pcs[i].references[j]);
        }
      }
      ProcessClaimsAgreeWithoutReplace(ApplyHeader(base, data), pcs);
    }
  }
}

=== FILE: json_values.dfy ===
/** JSON values as Python's `json` module hands them over, and the few Python
    operations the library applies to them: truthiness, `x in v`, `v[k]`,
    iteration, `v.get(k, d)` and `str(v)`.

    An object keeps its keys in document order, as a Python dict does; objects
    are taken to have distinct keys, which is what `json.loads` produces.
    Numbers are integers: no modelled operation reads a fractional number.
 */
module JsonValues {
  import opened Wrappers
  import opened Text
  import AssocList

  datatype Json =
    | JNull
    | JBool(b: bool)
    | JNum(n: int)
    | JStr(s: string)
    | JArr(items: seq<Json>)
    | JObj(fields: AssocList.AList<string, Json>)

  /** `bool(v)`: None, False, 0 and empty strings, lists and dicts are false. */
  predicate Truthy(j: Json)
  {
    match j
    case JNull => false
    case JBool(b) => b
    case JNum(n) => n != 0
    case JStr(s) => |s| > 0
    case JArr(xs) => |xs| > 0
    case JObj(fs) => |fs| > 0
  }

  /** Lists and dicts cannot be dictionary keys. */
  predicate Hashable(j: Json)
  {
    !j.JArr? && !j.JObj?
  }

  /** The integer a value stands for when it indexes a list (`bool` is an
      `int` in Python). */
  function AsIndex(j: Json): Option<int>
  {
    match j
    case JNum(n) => Some(n)
    case JBool(b) => Some(if b then 1 else 0)
    case _ => None
  }

  /** `needle in hay`. */
  function Contains(needle: Json, hay: Json): (r: Py<bool>)
    ensures hay.JObj? && needle.JStr? ==> r == Ok(needle.s in AssocList.Keys(hay.fields))
    ensures hay.JNull? || hay.JBool? || hay.JNum? ==> r == Raises(TypeError)
  {
    match hay
    case JObj(fs) =>
      if !Hashable(needle) then Raises(TypeError)
      else Ok(needle.JStr? && needle.s in AssocList.Keys(fs))
    case JArr(xs) => Ok(needle in xs)
    case JStr(s) => if needle.JStr? then Ok(IsSubstring(needle.s, s)) else Raises(TypeError)
    case _ => Raises(TypeError)
  }

  /** `hay[key]`, with Python's negative list indices. */
  function Subscript(hay: Json, key: Json): (r: Py<Json>)
    ensures hay.JObj? && key.JStr? && key.s in AssocList.Keys(hay.fields) ==>
              r == Ok(AssocList.Get(hay.fields, key.s).value)
    ensures hay.JObj? && key.JStr? && key.s !in AssocList.Keys(hay.fields) ==> r == Raises(KeyError)
  {
    match hay
    case JObj(fs) =>
      if !Hashable(key) then Raises(TypeError)
      else if key.JStr? && key.s in AssocList.Keys(fs) then Ok(AssocList.Get(fs, key.s).value)
      else Raises(KeyError)
    case JArr(xs) =>
      (match AsIndex(key)
       case None => Raises(TypeError)
       case Some(i) =>
         if -|xs| <= i < |xs| then Ok(xs[if i < 0 then i + |xs| else i]) else Raises(IndexError))
    case JStr(s) =>
      (match AsIndex(key)
       case None => Raises(TypeError)
       case Some(i) =>
         if -|s| <= i < |s| then Ok(JStr([s[if i < 0 then i + |s| else i]])) else Raises(IndexError))
    case _ => Raises(TypeError)
  }

  /** `hay[key]` for a string key, the common case. */
  function Field(hay: Json, key: string): Py<Json>
  {
    Subscript(hay, JStr(key))
  }

  /** `key in hay` for a string key. */
  function Has(hay: Json, key: string): Py<bool>
  {
    Contains(JStr(key), hay)
  }

  /** The items a `for` loop visits: list elements, dict keys, or the
      characters of a string. */
  function Iterate(j: Json): (r: Py<seq<Json>>)
    ensures j.JArr? ==> r == Ok(j.items)
    ensures r.Ok? ==> (|r.value| > 0 <==> Truthy(j))
  {
    match j
    case JArr(xs) => Ok(xs)
    case JObj(fs) => Ok(seq(|fs|, i requires 0 <= i < |fs| => JStr(fs[i].0)))
    case JStr(s) => Ok(seq(|s|, i requires 0 <= i < |s| => JStr([s[i]])))
    case _ => Raises(TypeError)
  }

  /** `hay.get(key, default)`; only dicts have a `get` method. */
  function DictGet(hay: Json, key: string, default: Json): (r: Py<Json>)
    ensures hay.JObj? ==> r == Ok(if key in AssocList.Keys(hay.fields)
                                   then AssocList.Get(hay.fields, key).value else default)
    ensures !hay.JObj? ==> r == Raises(AttributeError)
  {
    match hay
    case JObj(fs) => Ok(if key in AssocList.Keys(fs) then AssocList.Get(fs, key).value else default)
    case _ => Raises(AttributeError)
  }

  /** `sep.join(parts)` for a separator of any length. */
  function JoinWith(parts: seq<string>, sep: string): string
  {
    if |parts| == 0 then ""
    else if |parts| == 1 then parts[0]
    else JoinWith(parts[..|parts| - 1], sep) + sep + parts[|parts| - 1]
  }

  /** `str(v)`, which an f-string applies to every interpolated value. */
  function PyStr(j: Json): string
  {
    match j
    case JNull => "None"
    case JBool(b) => if b then "True" else "False"
    case JNum(n) => IntToString(n)
    case JStr(s) => s
    case _ => Repr(j)
  }

  /** `str` renders a string as itself and an integer as text that `int()`
      reads back. */
  lemma PyStrReadsBack(j: Json)
    ensures j.JStr? ==> PyStr(j) == j.s
    ensures j.JNum? ==> ParseInt(PyStr(j)) == Some(j.n)
  {
    if j.JNum? {
      IntToStringRoundTrip(j.n);
    }
  }

  /** `repr(v)` for the values `str` renders through `repr`: strings are
      single-quoted, containers are written element by element. */
  function Repr(j: Json): string
  {
    match j
    case JStr(s) => "'" + s + "'"
    case JArr(xs) =>
      "[" + JoinWith(seq(|xs|, i requires 0 <= i < |xs| => Repr(xs[i])), ", ") + "]"
    case JObj(fs) =>
      "{" + JoinWith(seq(|fs|, i requires 0 <= i < |fs| => "'" + fs[i].0 + "': " + Repr(fs[i].1)), ", ") + "}"
    case JNull => "None"
    case JBool(b) => if b then "True" else "False"
    case JNum(n) => IntToString(n)
  }
}

=== FILE: text.dfy ===
/** String helpers with Python's meaning: `str.startswith`, `in` on strings,
    `str.split(sep)`, `sep.join(parts)`, `int(s)` and zero-padded decimal
    formatting. Strings are sequences of Unicode code points, as in Python 3.
 */
module Text {
  import opened Wrappers

  predicate StartsWith(s: string, prefix: string) {
    |prefix| <= |s| && s[..|prefix|] == prefix
  }

  /** `p in s` for two Python strings. */
  predicate IsSubstring(p: string, s: string)
  {
    StartsWith(s, p) || (|s| > 0 && IsSubstring(p, s[1..]))
  }

  /** `sep.join(parts)`. */
  function Join(parts: seq<string>, sep: char): string
  {
    if |parts| == 0 then ""
    else if |parts| == 1 then parts[0]
    else Join(parts[..|parts| - 1], sep) + [sep] + parts[|parts| - 1]
  }

  /** `s.split(sep)` for a one-character separator: the pieces between
      separators, always at least one (`"".split("/") == [""]`). */
  function Split(s: string, sep: char): (parts: seq<string>)
    ensures |parts| >= 1
  {
    if |s| == 0 then [""]
    else
      var init := Split(s[..|s| - 1], sep);
      var c := s[|s| - 1];
      if c == sep then init + [""]
      else init[..|init| - 1] + [init[|init| - 1] + [c]]
  }

  lemma {:induction false} SplitWithoutSeparator(s: string, sep: char)
    requires sep !in s
    ensures Split(s, sep) == [s]
  {
    if |s| > 0 {
      var n := |s| - 1;
      assert sep !in s[..n] by {
        forall i | 0 <= i < n ensures s[..n][i] != sep {
          assert s[..n][i] == s[i];
        }
      }
      SplitWithoutSeparator(s[..n], sep);
      assert s[..n] + [s[n]] == s;
    }
  }

  /** One more character at the end either starts a new piece (a separator)
      or extends the last piece. */
  lemma SplitSnoc(s: string, c: char, sep: char)
    ensures Split(s + [c], sep) ==
              var init := Split(s, sep);
              if c == sep then init + [""] else init[..|init| - 1] + [init[|init| - 1] + [c]]
  {
    assert (s + [c])[..|s|] == s;
  }

  /** Splitting at a separator splits both sides independently. */
  lemma {:induction false} SplitAround(x: string, y: string, sep: char)
    ensures Split(x + [sep] + y, sep) == Split(x, sep) + Split(y, sep)
  {
    if |y| == 0 {
      assert x + [sep] + y == x + [sep];
      SplitSnoc(x, sep, sep);
    } else {
      var n := |y| - 1;
      SplitAround(x, y[..n], sep);
      SplitAroundStep(x, y[..n], y[n], sep);
      assert x + [sep] + y[..n] + [y[n]] == x + [sep] + y;
      assert y[..n] + [y[n]] == y;
    }
  }

  lemma SplitAroundStep(x: string, y: string, c: char, sep: char)
    requires Split(x + [sep] + y, sep) == Split(x, sep) + Split(y, sep)
    ensures Split(x + [sep] + y + [c], sep) == Split(x, sep) + Split(y + [c], sep)
  {
    SplitSnoc(x + [sep] + y, c, sep);
    SplitSnoc(y, c, sep);
    if c != sep {
      ExtendLastPiece(Split(x, sep), Split(y, sep), [c]);
    }
  }

  /** Extending the last piece of `a + b` extends the last piece of `b`. */
  lemma ExtendLastPiece(a: seq<string>, b: seq<string>, t: string)
    requires |b| >= 1
    ensures var ab := a + b;
            ab[..|ab| - 1] + [ab[|ab| - 1] + t] == a + (b[..|b| - 1] + [b[|b| - 1] + t])
  {
    var ab := a + b;
    assert ab[..|ab| - 1] == a + b[..|b| - 1];
  }

  /** No piece of a split contains the separator. */
  lemma {:induction false} SplitPiecesHaveNoSeparator(s: string, sep: char)
    ensures forall i :: 0 <= i < |Split(s, sep)| ==> sep !in Split(s, sep)[i]
  {
    if |s| > 0 {
      SplitPiecesHaveNoSeparator(s[..|s| - 1], sep);
    }
  }

  /** Joining the pieces of a split gives the string back. */
  lemma {:induction false} JoinSplit(s: string, sep: char)
    ensures Join(Split(s, sep), sep) == s
  {
    if |s| > 0 {
      var n := |s| - 1;
      var p, c := s[..n], s[n];
      assert s == p + [c];
      JoinSplit(p, sep);
      SplitSnoc(p, c, sep);
      var init := Split(p, sep);
      if c == sep {
        assert Split(s, sep) == init + [""];
        JoinNewPiece(init, sep);
      } else {
        assert Split(s, sep) == init[..|init| - 1] + [init[|init| - 1] + [c]];
        JoinExtendLast(init, [c], sep);
      }
    }
  }

  /** A new empty piece adds one separator. */
  lemma JoinNewPiece(parts: seq<string>, sep: char)
    requires |parts| >= 1
    ensures Join(parts + [""], sep) == Join(parts, sep) + [sep]
  {
    assert (parts + [""])[..|parts|] == parts;
  }

  /** Extending the last piece extends the joined string. */
  lemma JoinExtendLast(parts: seq<string>, t: string, sep: char)
    requires |parts| >= 1
    ensures Join(parts[..|parts| - 1] + [parts[|parts| - 1] + t], sep) == Join(parts, sep) + t
  {
    var m := |parts|;
    var ext := parts[..m - 1] + [parts[m - 1] + t];
    if m > 1 {
      assert ext[..m - 1] == parts[..m - 1];
    }
  }

  /** Splitting a join gives the pieces back when no piece holds the separator. */
  lemma {:induction false} SplitJoin(parts: seq<string>, sep: char)
    requires |parts| >= 1
    requires forall i :: 0 <= i < |parts| ==> sep !in parts[i]
    ensures Split(Join(parts, sep), sep) == parts
  {
    var n := |parts| - 1;
    if n == 0 {
      SplitWithoutSeparator(parts[0], sep);
    } else {
      SplitJoin(parts[..n], sep);
      SplitAround(Join(parts[..n], sep), parts[n], sep);
      SplitWithoutSeparator(parts[n], sep);
      assert parts[..n] + [parts[n]] == parts;
    }
  }

  /** `s.split('/')[-1]`: what follows the last slash, or all of `s`. */
  function LastSegment(s: string): string
  {
    var parts := Split(s, '/');
    parts[|parts| - 1]
  }

  /** The last segment holds no slash and ends the string; it is the whole
      string or is preceded by a slash, so it is exactly what follows the
      last slash. */
  lemma LastSegmentProperties(s: string)
    ensures '/' !in LastSegment(s)
    ensures |LastSegment(s)| <= |s| && s[|s| - |LastSegment(s)|..] == LastSegment(s)
    ensures |LastSegment(s)| < |s| ==> s[|s| - |LastSegment(s)| - 1] == '/'
    ensures '/' !in s ==> LastSegment(s) == s
  {
    var parts := Split(s, '/');
    var m := |parts|;
    SplitPiecesHaveNoSeparator(s, '/');
    JoinSplit(s, '/');
    if m > 1 {
      var head := Join(parts[..m - 1], '/');
      assert s == head + ['/'] + parts[m - 1];
      assert s[|head|] == '/';
    }
    if '/' !in s {
      SplitWithoutSeparator(s, '/');
    }
  }

  lemma LastSegmentAfterSlash(prefix: string, segment: string)
    requires '/' !in segment
    ensures LastSegment(prefix + "/" + segment) == segment
  {
    SplitAround(prefix, segment, '/');
    SplitWithoutSeparator(segment, '/');
  }

  predicate IsDigit(c: char) {
    '0' <= c <= '9'
  }

  predicate AllDigits(s: string) {
    forall i :: 0 <= i < |s| ==> IsDigit(s[i])
  }

  function DigitChar(d: nat): (c: char)
    requires d < 10
    ensures IsDigit(c)
  {
    (48 + d) as char
  }

  function DigitValue(c: char): (d: nat)
    requires IsDigit(c)
    ensures d < 10 && DigitChar(d) == c
  {
    (c as int - 48) as nat
  }

  function Pow10(n: nat): nat
  {
    if n == 0 then 1 else 10 * Pow10(n - 1)
  }

  /** The decimal value of a string of digits. */
  function ParseDigits(s: string): nat
    requires AllDigits(s)
  {
    if |s| == 0 then 0
    else ParseDigits(s[..|s| - 1]) * 10 + DigitValue(s[|s| - 1])
  }

  /** `n` written with exactly `width` decimal digits, zero-padded on the left
      (as `%0<width>d` and strftime's `%Y`, `%m`, `%d` write it). */
  function Digits(n: nat, width: nat): (s: string)
    ensures |s| == width && AllDigits(s)
  {
    if width == 0 then ""
    else Digits(n / 10, width - 1) + [DigitChar(n % 10)]
  }

  lemma {:induction false} DigitsRoundTrip(n: nat, width: nat)
    requires n < Pow10(width)
    ensures ParseDigits(Digits(n, width)) == n
  {
    if width > 0 {
      var s := Digits(n, width);
      DigitsRoundTrip(n / 10, width - 1);
      assert s[..width - 1] == Digits(n / 10, width - 1);
    }
  }

  /** `str(n)` for a natural number: its decimal digits without padding. */
  function NatToString(n: nat): (s: string)
    ensures |s| >= 1 && AllDigits(s)
  {
    if n < 10 then [DigitChar(n)]
    else NatToString(n / 10) + [DigitChar(n % 10)]
  }

  lemma {:induction false} NatToStringRoundTrip(n: nat)
    ensures ParseDigits(NatToString(n)) == n
  {
    var s := NatToString(n);
    if n >= 10 {
      NatToStringRoundTrip(n / 10);
      assert s[..|s| - 1] == NatToString(n / 10);
    } else {
      assert s[..0] == "";
    }
  }

  /** `str(n)` for a Python int. */
  function IntToString(n: int): string
  {
    if n < 0 then "-" + NatToString(-n) else NatToString(n)
  }

  /** `int(s)`: an optional sign followed by one or more decimal digits; any
      other string makes Python raise ValueError, here None. */
  function ParseInt(s: string): (r: Option<int>)
    ensures r.Some? ==> |s| >= 1
  {
    var signed := |s| > 0 && (s[0] == '+' || s[0] == '-');
    var body := if signed then s[1..] else s;
    if |body| == 0 || !AllDigits(body) then None
    else if signed && s[0] == '-' then Some(0 - ParseDigits(body) as int)
    else Some(ParseDigits(body))
  }

  /** `int()` of a digit string. */
  lemma ParseIntOfDigits(d: string)
    requires |d| >= 1 && AllDigits(d)
    ensures ParseInt(d) == Some(ParseDigits(d) as int)
  {
    assert IsDigit(d[0]);
    assert d[0] != '+' && d[0] != '-';
  }

  /** `int()` of a minus sign followed by a digit string. */
  lemma ParseIntOfNegative(d: string)
    requires |d| >= 1 && AllDigits(d)
    ensures ParseInt("-" + d) == Some(0 - ParseDigits(d) as int)
  {
    var s := "-" + d;
    assert s[0] == '-';
    assert s[1..] == d;
  }

  /** `int(str(n)) == n`. */
  lemma IntToStringRoundTrip(n: int)
    ensures ParseInt(IntToString(n)) == Some(n)
  {
    var d := NatToString(if n < 0 then -n else n);
    NatToStringRoundTrip(if n < 0 then -n else n);
    if n < 0 {
      ParseIntOfNegative(d);
    } else {
      ParseIntOfDigits(d);
    }
  }
}

=== FILE: wb.dfy ===
/** The pure part of `wbmaker/wb.py`: shaping a SPARQL endpoint's JSON answer
    (`WB.sparql_query`, with the HTTP status and the parsed body as inputs),
    post-processing the property map (`WB.property_map`), and the Wikibase
    date stamp (`WB.wb_dt`).
 */
module Wb {
  import opened Wrappers
  import opened Text
  import opened JsonValues
  import AssocList

  // ---------------------------------------------------------------------------
  // wb_dt
  // ---------------------------------------------------------------------------

  /** The fields of a Python `datetime.datetime` (time zone not used). */
  datatype DateFields = DateFields(year: int, month: int, day: int,
                                   hour: int, minute: int, second: int, microsecond: int)

  predicate IsLeapYear(y: int) {
    y % 4 == 0 && (y % 100 != 0 || y % 400 == 0)
  }

  function DaysInMonth(y: int, m: int): int
    requires 1 <= m <= 12
  {
    if m == 2 then (if IsLeapYear(y) then 29 else 28)
    else if m == 4 || m == 6 || m == 9 || m == 11 then 30
    else 31
  }

  /** The ranges a `datetime` object enforces on construction. */
  predicate ValidDate(d: DateFields) {
    && 1 <= d.year <= 9999
    && 1 <= d.month <= 12
    && 1 <= d.day <= DaysInMonth(d.year, d.month)
    && 0 <= d.hour < 24 && 0 <= d.minute < 60 && 0 <= d.second < 60
    && 0 <= d.microsecond < 1000000
  }

  type DateTime = d: DateFields | ValidDate(d) witness DateFields(1, 1, 1, 0, 0, 0, 0)

  /** `dt.strftime("+%Y-%m-%dT%H:%M:%SZ")`. */
  function Strftime(dt: DateTime): string
  {
    "+" + Digits(dt.year, 4) + "-" + Digits(dt.month, 2) + "-" + Digits(dt.day, 2)
    + "T" + Digits(dt.hour, 2) + ":" + Digits(dt.minute, 2) + ":" + Digits(dt.second, 2) + "Z"
  }

  /** `wb_dt(dt)`: the formatted stamp cut at its first `T`, with midnight
      appended. */
  function WbDt(dt: DateTime): string
  {
    Split(Strftime(dt), 'T')[0] + "T00:00:00Z"
  }

  /** The date part `+YYYY-MM-DD` of a stamp. */
  function DatePart(dt: DateTime): string
  {
    "+" + Digits(dt.year, 4) + "-" + Digits(dt.month, 2) + "-" + Digits(dt.day, 2)
  }

  lemma DigitsHaveNoT(s: string)
    requires AllDigits(s)
    ensures 'T' !in s
  {
    forall i | 0 <= i < |s| ensures s[i] != 'T' {
      assert IsDigit(s[i]);
    }
  }

  /** The stamp is `+YYYY-MM-DD` followed by `T00:00:00Z`: the time of day is
      discarded. */
  lemma WbDtFormat(dt: DateTime)
    ensures WbDt(dt) == DatePart(dt) + "T00:00:00Z"
    ensures |WbDt(dt)| == 21
  {
    var date := DatePart(dt);
    var time := Digits(dt.hour, 2) + ":" + Digits(dt.minute, 2) + ":" + Digits(dt.second, 2) + "Z";
    assert Strftime(dt) == date + ['T'] + time;
    DigitsHaveNoT(Digits(dt.year, 4));
    DigitsHaveNoT(Digits(dt.month, 2));
    DigitsHaveNoT(Digits(dt.day, 2));
    assert 'T' !in date;
    SplitAround(date, time, 'T');
    SplitWithoutSeparator(date, 'T');
  }

  /** Reads the date back out of a stamp of the `wb_dt` form. */
  function ParseStamp(s: string): Option<(int, int, int)>
  {
    if |s| == 21 && s[0] == '+' && s[5] == '-' && s[8] == '-' && s[11..] == "T00:00:00Z"
       && AllDigits(s[1..5]) && AllDigits(s[6..8]) && AllDigits(s[9..11])
    then Some((ParseDigits(s[1..5]), ParseDigits(s[6..8]), ParseDigits(s[9..11])))
    else None
  }

  /** The stamp records exactly the calendar date. */
  lemma WbDtRoundTrip(dt: DateTime)
    ensures ParseStamp(WbDt(dt)) == Some((dt.year, dt.month, dt.day))
  {
    WbDtFormat(dt);
    var s := WbDt(dt);
    assert s[1..5] == Digits(dt.year, 4);
    assert s[6..8] == Digits(dt.month, 2);
    assert s[9..11] == Digits(dt.day, 2);
    DigitsRoundTrip(dt.year, 4);
    DigitsRoundTrip(dt.month, 2);
    DigitsRoundTrip(dt.day, 2);
  }

  /** Two date-times get the same stamp exactly when they fall on the same day. */
  lemma WbDtSameDay(a: DateTime, b: DateTime)
    ensures WbDt(a) == WbDt(b) <==> (a.year, a.month, a.day) == (b.year, b.month, b.day)
  {
    WbDtRoundTrip(a);
    WbDtRoundTrip(b);
    WbDtFormat(a);
    WbDtFormat(b);
  }

  // ---------------------------------------------------------------------------
  // sparql_query
  // ---------------------------------------------------------------------------

  /** One shaped row: head variable -> the bound term's `value`, or None. */
  type Record = AssocList.AList<Json, Json>

  /** What `sparql_query` returns for each output mode. A pandas DataFrame is
      represented by the records it is built from. */
  datatype QueryOutput =
    | Raw(json: Json)
    | Frame(rows: seq<Record>)
    | Lookup(table: AssocList.AList<Json, Json>)
    | Records(rows: seq<Record>)

  /** `record[var_name]['value']`. */
  function TermValue(binding: Json, v: Json): Py<Json>
  {
    var term :- Subscript(binding, v);
    Field(term, "value")
  }

  /** `record[var_name]['value'] if var_name in record else None`. */
  function Cell(binding: Json, v: Json): (r: Py<Json>)
    ensures binding.JObj? && v.JStr? && v.s !in AssocList.Keys(binding.fields) ==> r == Ok(JNull)
    ensures binding.JObj? && v.JStr? && v.s in AssocList.Keys(binding.fields) ==> r == TermValue(binding, v)
  {
    var present :- Contains(v, binding);
    if present then TermValue(binding, v) else Ok(JNull)
  }

  /** The inner loop of `sparql_query`: one dict entry per head variable. */
  function ShapeRecord(binding: Json, vars: seq<Json>): Py<Record>
  {
    if |vars| == 0 then Ok([])
    else
      var acc :- ShapeRecord(binding, vars[..|vars| - 1]);
      var v := vars[|vars| - 1];
      var value :- Cell(binding, v);
      if Hashable(v) then Ok(AssocList.Put(acc, v, value)) else Raises(TypeError)
  }

  /** The outer loop of `sparql_query`: one record per binding, in order. */
  function ShapeRecords(bindings: seq<Json>, varNames: Json): (r: Py<seq<Record>>)
    ensures r.Ok? ==> |r.value| == |bindings|
    ensures r.Ok? && |bindings| > 0 ==>
              && Iterate(varNames).Ok?
              && forall i :: 0 <= i < |bindings| ==>
                   ShapeRecord(bindings[i], Iterate(varNames).value) == Ok(r.value[i])
  {
    if |bindings| == 0 then Ok([])
    else
      var n := |bindings| - 1;
      var acc :- ShapeRecords(bindings[..n], varNames);
      var vars :- Iterate(varNames);
      var record :- ShapeRecord(bindings[n], vars);
      Ok(acc + [record])
  }

  /** The head variables of a shaped table (pandas takes them from the
      records; every record has the same keys). */
  function Columns(records: seq<Record>): seq<Json>
  {
    if |records| == 0 then [] else AssocList.Keys(records[0])
  }

  /** The values of one column, top to bottom. */
  function Column(records: seq<Record>, key: Json): (col: seq<Json>)
    ensures |col| == |records|
  {
    seq(|records|, i requires 0 <= i < |records| => AssocList.Get(records[i], key).GetOr(JNull))
  }

  /** `dict(zip(keys, values))` as pandas' `to_dict` builds it: a repeated key
      keeps its first position and its last value. */
  function ToDict(keys: seq<Json>, values: seq<Json>): (r: Py<AssocList.AList<Json, Json>>)
    requires |keys| == |values|
    ensures r.Ok? <==> forall i :: 0 <= i < |keys| ==> Hashable(keys[i])
  {
    if exists i :: 0 <= i < |keys| && !Hashable(keys[i]) then Raises(TypeError)
    else Ok(AssocList.PutAll([], Zip(keys, values)))
  }

  function Zip(keys: seq<Json>, values: seq<Json>): (z: seq<(Json, Json)>)
    requires |keys| == |values|
    ensures |z| == |keys|
    ensures forall i :: 0 <= i < |z| ==> z[i] == (keys[i], values[i])
  {
    seq(|keys|, i requires 0 <= i < |keys| => (keys[i], values[i]))
  }

  /** `x.split('/')[-1]` over a column; only strings have `split`. */
  function Segments(xs: seq<Json>): (r: Py<seq<Json>>)
    ensures r.Ok? <==> forall i :: 0 <= i < |xs| ==> xs[i].JStr?
    ensures r.Ok? ==> |r.value| == |xs|
    ensures r.Ok? ==> forall i :: 0 <= i < |xs| ==> r.value[i] == JStr(LastSegment(xs[i].s))
  {
    if forall i :: 0 <= i < |xs| ==> xs[i].JStr? then
      Ok(seq(|xs|, i requires 0 <= i < |xs| => JStr(LastSegment(xs[i].s))))
    else Raises(AttributeError)
  }

  /** Each identifier is the part of its cell after the last `/`: it holds no
      slash, ends the cell, and is the whole cell or preceded by a slash. */
  lemma SegmentsAreLastPathParts(xs: seq<Json>)
    ensures Segments(xs).Ok? <==> forall i :: 0 <= i < |xs| ==> xs[i].JStr?
    ensures Segments(xs).Ok? ==> forall i :: 0 <= i < |xs| ==>
              var seg, s := Segments(xs).value[i].s, xs[i].s;
              && '/' !in seg
              && |seg| <= |s| && s[|s| - |seg|..] == seg
              && (|seg| < |s| ==> s[|s| - |seg| - 1] == '/')
  {
    if Segments(xs).Ok? {
      forall i | 0 <= i < |xs|
        ensures var seg, s := Segments(xs).value[i].s, xs[i].s;
                && '/' !in seg
                && |seg| <= |s| && s[|s| - |seg|..] == seg
                && (|seg| < |s| ==> s[|s| - |seg| - 1] == '/')
      {
        LastSegmentProperties(xs[i].s);
      }
    }
  }

  /** The `'lookup'` output: second column -> last path segment of the first.
      Assigning the `lookup_value` column first means a first column that is
      itself named `lookup_value` is overwritten before it is split. */
  function LookupTable(records: seq<Record>): Py<AssocList.AList<Json, Json>>
  {
    var cols := Columns(records);
    if |cols| < 2 then Raises(IndexError)
    else
      var labels := Column(records, cols[1]);
      var source := if cols[0] == JStr("lookup_value") then labels else Column(records, cols[0]);
      var ids :- Segments(source);
      ToDict(labels, ids)
  }

  /** The bindings list of a body, `json_results['results']['bindings']`. */
  function BindingsOf(json: Json): Py<Json>
  {
    var results :- Field(json, "results");
    Field(results, "bindings")
  }

  /** The head variables of a body, `json_results['head']['vars']`. */
  function HeadVars(json: Json): Py<Json>
  {
    var head :- Field(json, "head");
    Field(head, "vars")
  }

  /** The record list the non-raw modes build from a body: the bindings,
      iterated, each shaped over the head variables. */
  function QueryRecords(json: Json): (r: Py<seq<Record>>)
    ensures r.Ok? <==>
              && BindingsOf(json).Ok? && HeadVars(json).Ok? && Iterate(BindingsOf(json).value).Ok?
              && ShapeRecords(Iterate(BindingsOf(json).value).value, HeadVars(json).value).Ok?
    ensures r.Ok? ==> r.value == ShapeRecords(Iterate(BindingsOf(json).value).value, HeadVars(json).value).value
  {
    var bindings :- BindingsOf(json);
    var varNames :- HeadVars(json);
    var rows :- Iterate(bindings);
    ShapeRecords(rows, varNames)
  }

  /** The answer of a body whose bindings are present and non-empty. */
  predicate HasBindings(json: Json)
  {
    BindingsOf(json).Ok? && Truthy(BindingsOf(json).value)
  }

  /** `WB.sparql_query(query, output=output)` once the endpoint has answered
      with `status` and a body that parsed as `body` (None when `r.json()`
      failed). The frame, the lookup table and the record list are built
      from the records `ShapeRecords` shapes. */
  function SparqlQuery(status: int, body: Option<Json>, output: string): (r: Py<Option<QueryOutput>>)
    ensures status != 200 ==> r == Ok(None)
    ensures status == 200 && body.None? ==> r == Ok(None)
    ensures r.Ok? && r.value.Some? ==> status == 200 && body.Some? && HasBindings(body.value)
    ensures status == 200 && body.Some? && HasBindings(body.value) ==>
              var records := QueryRecords(body.value);
              && (output == "raw" ==> r == Ok(Some(Raw(body.value))))
              && (output == "dataframe" ==>
                    (r.Ok? <==> records.Ok?) && (records.Ok? ==> r == Ok(Some(Frame(records.value)))))
              && (output == "lookup" ==>
                    && (r.Ok? <==> records.Ok? && LookupTable(records.value).Ok?)
                    && (r.Ok? ==> r == Ok(Some(Lookup(LookupTable(records.value).value)))))
              && (output !in {"raw", "dataframe", "lookup"} ==>
                    (r.Ok? <==> records.Ok?) && (records.Ok? ==> r == Ok(Some(Records(records.value)))))
  {
    if status != 200 then Ok(None)
    else match body
      case None => Ok(None)
      case Some(json) =>
        var bindings :- BindingsOf(json);
        if !Truthy(bindings) then Ok(None)
        else if output == "raw" then Ok(Some(Raw(json)))
        else
          var records :- QueryRecords(json);
          if output == "dataframe" then Ok(Some(Frame(records)))
          else if output == "lookup" then
            var table :- LookupTable(records);
            Ok(Some(Lookup(table)))
          else Ok(Some(Records(records)))
  }

  /** A body whose bindings are missing or empty yields None in every mode. */
  lemma EmptyBindingsGiveNone(body: Json, output: string)
    requires BindingsOf(body).Ok? && !Truthy(BindingsOf(body).value)
    ensures SparqlQuery(200, Some(body), output) == Ok(None)
  {
  }

  /** A body that lacks `results` or `results.bindings` makes Python raise. */
  lemma MissingBindingsRaise(body: Json, output: string)
    requires BindingsOf(body).Raises?
    ensures SparqlQuery(200, Some(body), output).Raises?
  {
  }

  // ----- the shape of a well-formed SPARQL JSON result -----------------------

  /** Every head variable can be looked up in the binding and used as a key. */
  predicate AllCellsOk(binding: Json, vars: seq<Json>)
  {
    forall i :: 0 <= i < |vars| ==> Cell(binding, vars[i]).Ok? && Hashable(vars[i])
  }

  /** The pairs a record is filled from, in head-variable order. */
  function CellPairs(binding: Json, vars: seq<Json>): (ps: seq<(Json, Json)>)
    requires AllCellsOk(binding, vars)
    ensures |ps| == |vars|
    ensures forall i :: 0 <= i < |vars| ==> ps[i] == (vars[i], Cell(binding, vars[i]).value)
  {
    seq(|vars|, i requires 0 <= i < |vars| => (vars[i], Cell(binding, vars[i]).value))
  }

  lemma AllCellsOkSnoc(binding: Json, vars: seq<Json>)
    requires |vars| > 0
    ensures AllCellsOk(binding, vars) <==>
              && AllCellsOk(binding, vars[..|vars| - 1])
              && Cell(binding, vars[|vars| - 1]).Ok? && Hashable(vars[|vars| - 1])
  {
    var n := |vars| - 1;
    if AllCellsOk(binding, vars[..n]) && Cell(binding, vars[n]).Ok? && Hashable(vars[n]) {
      forall i | 0 <= i < |vars| ensures Cell(binding, vars[i]).Ok? && Hashable(vars[i]) {
        if i < n {
          assert vars[..n][i] == vars[i];
        }
      }
    }
  }

  /** A record is well defined exactly when every head variable can be looked
      up in the binding and used as a key; it is then the dictionary filled
      from the variables in head order. */
  lemma {:induction false} ShapeRecordIsDictOfCells(binding: Json, vars: seq<Json>)
    ensures ShapeRecord(binding, vars).Ok? <==> AllCellsOk(binding, vars)
    ensures ShapeRecord(binding, vars).Ok? ==>
              ShapeRecord(binding, vars).value == AssocList.PutAll([], CellPairs(binding, vars))
  {
    if |vars| > 0 {
      var n := |vars| - 1;
      ShapeRecordIsDictOfCells(binding, vars[..n]);
      AllCellsOkSnoc(binding, vars);
      if AllCellsOk(binding, vars) {
        assert CellPairs(binding, vars)[..n] == CellPairs(binding, vars[..n]);
      }
    }
  }

  /** Every record has exactly the head variables as keys, in head order
      (a repeated variable once), and each holds the bound term's value, or
      None where the binding lacks the variable. */
  lemma RecordHasExactlyHeadVariables(binding: Json, vars: seq<Json>)
    requires ShapeRecord(binding, vars).Ok?
    ensures AssocList.Keys(ShapeRecord(binding, vars).value) == AssocList.Dedup(vars)
    ensures forall v :: v in vars ==>
              Cell(binding, v).Ok? &&
              AssocList.Get(ShapeRecord(binding, vars).value, v) == Some(Cell(binding, v).value)
  {
    ShapeRecordIsDictOfCells(binding, vars);
    var ps := CellPairs(binding, vars);
    AssocList.FromPairsKeys(ps);
    assert AssocList.Keys(ps) == vars;
    forall v | v in vars
      ensures Cell(binding, v).Ok? &&
              AssocList.Get(ShapeRecord(binding, vars).value, v) == Some(Cell(binding, v).value)
    {
      AssocList.PutAllGet([], ps, v);
      LastValueOfCells(binding, vars, v);
    }
  }

  lemma {:induction false} LastValueOfCells(binding: Json, vars: seq<Json>, v: Json)
    requires AllCellsOk(binding, vars)
    requires v in vars
    ensures Cell(binding, v).Ok?
    ensures v in AssocList.Keys(CellPairs(binding, vars))
    ensures AssocList.LastValue(CellPairs(binding, vars), v) == Cell(binding, v).value
  {
    var ps := CellPairs(binding, vars);
    var n := |vars| - 1;
    assert AssocList.Keys(ps) == vars;
    if vars[n] != v {
      assert v in vars[..n] by {
        var k :| 0 <= k < |vars| && vars[k] == v;
        assert vars[..n][k] == v;
      }
      AllCellsOkSnoc(binding, vars);
      LastValueOfCells(binding, vars[..n], v);
      assert ps[..n] == CellPairs(binding, vars[..n]);
    }
  }

  /** The records of a non-raw answer: one per binding, in binding order,
      each with exactly the head variables as keys. */
  lemma QueryRowsHaveHeadVariables(body: Json, output: string)
    requires output != "raw" && output != "lookup"
    requires SparqlQuery(200, Some(body), output).Ok? && SparqlQuery(200, Some(body), output).value.Some?
    ensures var out := SparqlQuery(200, Some(body), output).value.value;
            && (out.Frame? || out.Records?)
            && |out.rows| == |Iterate(BindingsOf(body).value).value|
            && forall i :: 0 <= i < |out.rows| ==>
                 AssocList.Keys(out.rows[i]) == AssocList.Dedup(Iterate(HeadVars(body).value).value)
  {
    var rows := Iterate(BindingsOf(body).value).value;
    OneRecordPerBinding(rows, HeadVars(body).value);
  }

  /** Shaping yields one record per binding, in binding order, each with
      exactly the head variables as keys. */
  lemma OneRecordPerBinding(bindings: seq<Json>, varNames: Json)
    requires ShapeRecords(bindings, varNames).Ok?
    ensures |ShapeRecords(bindings, varNames).value| == |bindings|
    ensures forall i :: 0 <= i < |bindings| ==>
              AssocList.Keys(ShapeRecords(bindings, varNames).value[i]) == AssocList.Dedup(Iterate(varNames).value)
  {
    var recs := ShapeRecords(bindings, varNames).value;
    forall i | 0 <= i < |bindings|
      ensures AssocList.Keys(recs[i]) == AssocList.Dedup(Iterate(varNames).value)
    {
      RecordHasExactlyHeadVariables(bindings[i], Iterate(varNames).value);
    }
  }

  // ----- lookup --------------------------------------------------------------

  /** `i` is the last row whose label is `labels[i]`. */
  predicate LastOccurrence(labels: seq<Json>, i: int)
    requires 0 <= i < |labels|
  {
    forall j :: i < j < |labels| ==> labels[j] != labels[i]
  }

  lemma {:induction false} LastValueAt(es: seq<(Json, Json)>, i: nat)
    requires i < |es|
    requires forall j :: i < j < |es| ==> es[j].0 != es[i].0
    ensures es[i].0 in AssocList.Keys(es)
    ensures AssocList.LastValue(es, es[i].0) == es[i].1
  {
    var n := |es| - 1;
    assert AssocList.Keys(es)[i] == es[i].0;
    if i < n {
      assert es[..n][i] == es[i];
      LastValueAt(es[..n], i);
      assert AssocList.Keys(es) == AssocList.Keys(es[..n]) + [es[n].0];
    }
  }

  /** `to_dict` after `set_index`: it fails exactly when some label cannot be
      a key; otherwise every label becomes a key, in order of first
      appearance, and holds the value of the last row with that label. */
  lemma ToDictLastWins(keys: seq<Json>, values: seq<Json>)
    requires |keys| == |values|
    ensures ToDict(keys, values).Ok? <==> forall i :: 0 <= i < |keys| ==> Hashable(keys[i])
    ensures ToDict(keys, values).Ok? ==>
              && AssocList.Keys(ToDict(keys, values).value) == AssocList.Dedup(keys)
              && forall i :: 0 <= i < |keys| && LastOccurrence(keys, i) ==>
                   AssocList.Get(ToDict(keys, values).value, keys[i]) == Some(values[i])
  {
    if !ToDict(keys, values).Ok? {
      return;
    }
    var z := Zip(keys, values);
    AssocList.FromPairsKeys(z);
    assert AssocList.Keys(z) == keys;
    forall i | 0 <= i < |keys| && LastOccurrence(keys, i)
      ensures AssocList.Get(ToDict(keys, values).value, keys[i]) == Some(values[i])
    {
      AssocList.PutAllGet([], z, keys[i]);
      LastValueAt(z, i);
    }
  }

  /** The `'lookup'` output maps each row's second-column value to the part of
      its first-column value after the last `/` (the last row wins for a
      repeated label). */
  lemma LookupMapsLabelToSegment(records: seq<Record>)
    requires |Columns(records)| >= 2 && Columns(records)[0] != JStr("lookup_value")
    requires forall i :: 0 <= i < |records| ==> Column(records, Columns(records)[0])[i].JStr?
    requires forall i :: 0 <= i < |records| ==> Hashable(Column(records, Columns(records)[1])[i])
    ensures LookupTable(records).Ok?
    ensures forall i :: 0 <= i < |records| && LastOccurrence(Column(records, Columns(records)[1]), i) ==>
              AssocList.Get(LookupTable(records).value, Column(records, Columns(records)[1])[i])
              == Some(JStr(LastSegment(Column(records, Columns(records)[0])[i].s)))
  {
    var cols := Columns(records);
    var labels := Column(records, cols[1]);
    var ids := Segments(Column(records, cols[0])).value;
    ToDictLastWins(labels, ids);
  }

  // ----- property_map --------------------------------------------------------

  /** `props['property'].str.split('/').str[-1]` for one cell; pandas gives NaN,
      here None, for a cell that is not a string. */
  function PidOf(x: Json): Json
  {
    if x.JStr? then JStr(LastSegment(x.s)) else JNull
  }

  /** The post-processing of `property_map` on the query's table. */
  function PropertyTable(rows: seq<Record>): Py<AssocList.AList<Json, Json>>
  {
    var cols := Columns(rows);
    if JStr("property") !in cols then Raises(KeyError)
    else if JStr("propertyLabel") !in cols then Raises(KeyError)
    else
      var uris := Column(rows, JStr("property"));
      var pids := seq(|rows|, i requires 0 <= i < |rows| => PidOf(uris[i]));
      ToDict(Column(rows, JStr("propertyLabel")), pids)
  }

  /** `WB.property_map()` given the endpoint's answer to its fixed query. A
      query that returns None (a failed request, an unparseable body, no
      bindings) makes the code index None: TypeError. Otherwise the map is
      built from the query's records. */
  function PropertyMap(status: int, body: Option<Json>): (r: Py<AssocList.AList<Json, Json>>)
    ensures status != 200 || body.None? ==> r == Raises(TypeError)
    ensures body.Some? && BindingsOf(body.value).Ok? && !Truthy(BindingsOf(body.value).value) ==> r == Raises(TypeError)
    ensures status == 200 && body.Some? && BindingsOf(body.value).Raises? ==> r == Raises(BindingsOf(body.value).error)
    ensures status == 200 && body.Some? && HasBindings(body.value) && QueryRecords(body.value).Ok? ==>
              r == PropertyTable(QueryRecords(body.value).value)
    ensures r.Ok? ==> status == 200 && body.Some? && QueryRecords(body.value).Ok?
  {
    var out :- SparqlQuery(status, body, "dataframe");
    if out.None? then Raises(TypeError) else PropertyTable(out.value.rows)
  }

  /** The property map sends each label to the last `/`-segment of its
      property URI. */
  lemma PropertyMapSendsLabelToPid(rows: seq<Record>)
    requires JStr("property") in Columns(rows) && JStr("propertyLabel") in Columns(rows)
    requires forall i :: 0 <= i < |rows| ==> Hashable(Column(rows, JStr("propertyLabel"))[i])
    ensures PropertyTable(rows).Ok?
    ensures forall i :: 0 <= i < |rows| && LastOccurrence(Column(rows, JStr("propertyLabel")), i) ==>
              AssocList.Get(PropertyTable(rows).value, Column(rows, JStr("propertyLabel"))[i])
              == Some(PidOf(Column(rows, JStr("property"))[i]))
  {
    var uris := Column(rows, JStr("property"));
    var pids := seq(|rows|, i requires 0 <= i < |rows| => PidOf(uris[i]));
    ToDictLastWins(Column(rows, JStr("propertyLabel")), pids);
  }
}

=== FILE: wrappers.dfy ===
/** Failure-compatible wrappers shared by the whole model.
    - Option<T> stands for a Python value that may be `None`.
    - Py<T> is the outcome of a Python call: it either returns a value or lets an
      exception escape. The source never catches the exceptions modelled here, so
      a `Raises` outcome is what the caller of the Python function would see.
 */
module Wrappers {

  datatype Option<+T> = None | Some(value: T) {

    predicate IsFailure() {
      None?
    }

    function PropagateFailure<U>(): Option<U>
      requires None?
    {
      None
    }

    function Extract(): T
      requires Some?
    {
      value
    }

    function GetOr(default: T): T {
      match this
      case Some(v) => v
      case None => default
    }
  }

  /** The Python exception classes that can escape the modelled code. */
  datatype PyError = KeyError | TypeError | AttributeError | IndexError | ValueError

  /** The outcome of evaluating a Python expression or call. */
  datatype Py<+T> = Ok(value: T) | Raises(error: PyError) {

    predicate IsFailure() {
      Raises?
    }

    function PropagateFailure<U>(): Py<U>
      requires Raises?
    {
      Raises(error)
    }

    function Extract(): T
      requires Ok?
    {
      value
    }
  }

  /** `[f(x) for x in xs]` where each call may raise: the first exception
      escapes, otherwise every result in order. */
  function MapPy<A, B>(f: A -> Py<B>, xs: seq<A>): (r: Py<seq<B>>)
    ensures r.Ok? <==> forall i :: 0 <= i < |xs| ==> f(xs[i]).Ok?
    ensures r.Ok? ==> |r.value| == |xs|
    ensures r.Ok? ==> forall i :: 0 <= i < |xs| ==> f(xs[i]) == Ok(r.value[i])
  {
    if |xs| == 0 then Ok([])
    else
      var n := |xs| - 1;
      var init :- MapPy(f, xs[..n]);
      var y :- f(xs[n]);
      assert forall i :: 0 <= i < n ==> xs[..n][i] == xs[i];
      Ok(init + [y])
  }

  /** Two functions that agree on every element map a sequence alike. */
  lemma {:induction false} MapPyAgree<A, B>(f: A -> Py<B>, g: A -> Py<B>, xs: seq<A>)
    requires forall i :: 0 <= i < |xs| ==> f(xs[i]) == g(xs[i])
    ensures MapPy(f, xs) == MapPy(g, xs)
  {
    if |xs| > 0 {
      var n := |xs| - 1;
      assert forall i :: 0 <= i < n ==> xs[..n][i] == xs[i];
      MapPyAgree(f, g, xs[..n]);
    }
  }

  /** Reference definition: the present values of `os`, in order. */
  function Somes<T>(os: seq<Option<T>>): seq<T>
  {
    if |os| == 0 then []
    else (if os[0].Some? then [os[0].value] else []) + Somes(os[1..])
  }

  lemma {:induction false} SomesSnoc<T>(os: seq<Option<T>>, o: Option<T>)
    ensures Somes(os + [o]) == Somes(os) + (if o.Some? then [o.value] else [])
  {
    if |os| > 0 {
      assert (os + [o])[1..] == os[1..] + [o];
      SomesSnoc(os[1..], o);
    }
  }

  /** The loop that applies `f` to each element in order, keeps the results
      that are present, and stops at the first exception. On success the
      result is exactly the present results, in the order of `xs`. */
  function FilterMapPy<A, B>(f: A -> Py<Option<B>>, xs: seq<A>): (r: Py<seq<B>>)
    ensures r.Ok? <==> forall i :: 0 <= i < |xs| ==> f(xs[i]).Ok?
    ensures r.Ok? ==> |r.value| <= |xs|
    ensures r.Ok? ==> MapPy(f, xs).Ok? && r.value == Somes(MapPy(f, xs).value)
    ensures r.Ok? ==> forall i :: 0 <= i < |xs| && f(xs[i]).value.Some? ==> f(xs[i]).value.value in r.value
    ensures r.Ok? ==> forall j :: 0 <= j < |r.value| ==> exists i :: 0 <= i < |xs| && f(xs[i]) == Ok(Some(r.value[j]))
  {
    if |xs| == 0 then Ok([])
    else
      var n := |xs| - 1;
      var init :- FilterMapPy(f, xs[..n]);
      var y :- f(xs[n]);
      assert forall i :: 0 <= i < n ==> xs[..n][i] == xs[i];
      SomesSnoc(MapPy(f, xs[..n]).value, y);
      Ok(if y.Some? then init + [y.value] else init)
  }

  /** Three elements whose results are all present give those results. */
  lemma FilterMapPyThree<A, B>(f: A -> Py<Option<B>>, a: A, b: A, c: A, x: B, y: B, z: B)
    requires f(a) == Ok(Some(x)) && f(b) == Ok(Some(y)) && f(c) == Ok(Some(z))
    ensures FilterMapPy(f, [a, b, c]) == Ok([x, y, z])
  {
    var xs := [a, b, c];
    assert xs[..2] == [a, b] && xs[..2][..1] == [a] && xs[..2][..1][..0] == [];
    assert FilterMapPy(f, [a]).value == [x];
    assert FilterMapPy(f, [a, b]).value == [x, y];
    assert FilterMapPy(f, xs).value == [x, y, z];
  }
}
